=== FILE: README.md ===
# Meeting pipeline: the poll loop, the transcript file and the PDF text

This project models, in Dafny, the core text logic of `meeting_pipeline.py`, the script that
turns a meeting recording into a transcript PDF and a summary PDF. It covers four pieces:

- **The speech-to-text client's poll loop** (`SpeechTextClient._get_complete_transcription_results`).
  - It queries the transcription job until the service reports `finished` or `failed`.
  - It appends one block per status-bearing reply to `meeting_outputs/<name>_full_transcript.txt`.
  - It keeps the last reported quota in `remaining_seconds`.
  - It returns the transcript together with the file's path.
- **The transcript PDF's paragraph splitter** (`PDFGenerator._split_transcript_into_paragraphs`).
- **The summary PDF's line classifier** (`PDFGenerator._format_summary_content`).
- **How the transcript PDF finds the transcript in that file** (the marker lines of `PDFGenerator._format_detailed_transcript`), and the write-then-read round trip between the poll loop and this extraction.

It also covers the batch processor's choice of recordings still to transcribe
(`BatchProcessor.get_files_needing_transcription`).

Modules:

- `Wrappers`: `Option` and `Result`.
  - `Option` stands for a missing JSON key.
  - `Result` stands for a return value or a raised exception.
- `PyString`: the Python `str` operations the code relies on, with Python's semantics.
  - `split(sep)` cuts left to right at non-overlapping occurrences and gives one more piece than it cuts.
  - `strip()` removes the characters for which `isspace()` holds; `strip(chars)` is also modelled.
  - Also `startswith`, `endswith`, substring `in` and `str(int)`.
- `TranscriptLog`: the blocks appended to the full-transcript file, and the exact text each append writes (`RenderBlock`, `RenderFile`).
- `SpeechText`: the poll loop.
  - `Run` is a reference definition of the whole loop over a finite sequence of replies.
  - The class `SpeechTextClient` holds the mutable `remainingSeconds` field. Its method `GetCompleteTranscriptionResults` runs the loop step by step, writes into a `TextFile` object, and is proved equal to `Run`.
  - The lemmas about `Run` state what the loop promises.
- `PdfText`: the paragraph splitter, the summary classifier and the marker extraction.
  - The splitter is an imperative method whose `for` loop mirrors the source. It is proved equal to the function `Paragraphs`.
  - The classifier and the extraction are functions.
- `RoundTrip`: the file a finished run writes gives its transcript back to the extraction.
- `Batch`: the filter over recordings, as a method with a loop proved equal to a function, together with `rfind` and `PurePath.stem` on file names.

Points of the code that are easy to misread:

- The extraction takes the text after the **first** `FINAL COMPLETE TRANSCRIPT:`, up to a second one if any. It does not look for the last occurrence (meeting_pipeline.py:427-429).
- The loop returns the transcript and the **path** of the full-transcript file. The quota is kept only on the client's field (meeting_pipeline.py:175).
- The quota is read from the top-level key `"remaining seconds"` (with a space). It is taken only from a reply that also has `results` (meeting_pipeline.py:116-119, 163-171). A reply with the quota but without `results` leaves it unchanged.
- The transcript is read from `results.transcript`, not from the top level of the reply (meeting_pipeline.py:163-175).

## Model

| member | source | states |
|---|---|---|
| SpeechText.SpeechTextClient.constructor | meeting_pipeline.py:33-37 | a new client keeps its API key and has no quota yet (`remaining_seconds = None`) |
| SpeechText.SpeechTextClient.GetCompleteTranscriptionResults | meeting_pipeline.py:77-182 | the file ends up holding the header followed by exactly the blocks of `Run` over the replies; the client's quota is `Run`'s quota; the result (transcript and path, or the exception) is `Run`'s outcome |
| SpeechText.SpeechTextClient.PollOnce | meeting_pipeline.py:99-180 | one pass of the loop appends exactly the blocks of `Step` for that reply, sets the quota `Step` gives, and stops exactly when `Step` stops, with the same result |
| SpeechText.SpeechTextClient.LogPoll | meeting_pipeline.py:111-150 | a status-bearing reply appends exactly its numbered poll block; the quota is overwritten only when the reply has both `results` and "remaining seconds" |
| SpeechText.SpeechTextClient.LogFinal | meeting_pipeline.py:155-177 | after `finished` the final block is appended (an empty transcript when `results` has none, no transcript line when there are no `results`); the quota is taken again; the result is `(T, path)` or "No transcript found in final results" |
| SpeechText.TextFile.Create | meeting_pipeline.py:94-97 | opening the file for writing leaves it holding only the block written |
| SpeechText.TextFile.Append | meeting_pipeline.py:112-150 | opening the file for appending adds the block at its end and keeps what was there |
| TranscriptLog.RenderBlock | meeting_pipeline.py:94-167 | every append ends a line; the header opens with `FULL TRANSCRIPT - <name>`, a poll block with `POLL #<n> - Status: <status>`, a final block with `FINAL TRANSCRIPTION COMPLETE` and 80 `=`; a final block that has a transcript ends with the `FINAL COMPLETE TRANSCRIPT:` line, the transcript and a blank line |
| TranscriptLog.RenderResults | meeting_pipeline.py:116-148 | a poll block's `results` sections, in the order remaining seconds, transcript content, word-level timestamps, speaker information, summary, each only when present |
| TranscriptLog.RenderFile | meeting_pipeline.py:94-167 | the file's text is the texts of its appends, in the order they were made |
| SpeechText.TranscriptPath | meeting_pipeline.py:89 | the full transcript is written to `meeting_outputs/<name>_full_transcript.txt` |
| SpeechText.EndsLoop | meeting_pipeline.py:105-106 | a reply ends the loop when it has no status or its status is `failed` or `finished`; StopIndex and Step state the consequence |
| SpeechText.FinishedOutcome | meeting_pipeline.py:174-177 | after `finished`, the result is `(results.transcript, path)` when both are present, and "No transcript found in final results" otherwise; FinishedRun and NoTranscriptRun state it for a run |
| SpeechText.QuotaAfter | meeting_pipeline.py:116-119 | a reply overwrites the quota only when it has both `results` and "remaining seconds" |
| SpeechText.BlockFor | meeting_pipeline.py:111-150 | the `n`-th poll's block holds the reply's status, its clock reading and its `results`, with the quota line only when `results` and "remaining seconds" are both present |
| SpeechText.FinalFor | meeting_pipeline.py:159-167 | the final block holds the reply's `results.transcript`, an empty one when `results` has none, and no transcript line when the reply has no `results` |
| SpeechText.Step | meeting_pipeline.py:99-180 | a turn stops the loop exactly when the reply has no status or is `failed` or `finished`; it appends no block for a status-less reply, two after `finished`, one otherwise |
| SpeechText.Run | meeting_pipeline.py:99-182 | the loop consumes at most the replies it is given, counting one poll per reply read |
| SpeechText.StopIndex | meeting_pipeline.py:105-106 | the loop stops at the first reply with no status or with status `failed` or `finished`, and at no earlier one |
| SpeechText.PollBlocks | meeting_pipeline.py:103-113 | the poll blocks of consecutive replies are numbered consecutively, one per reply |
| SpeechText.RunShape | meeting_pipeline.py:99-182 | a run reads the replies up to the first one that ends the loop; it counts each as a poll; it appends one numbered block per status-bearing reply and the final block after `finished`; it ends as that reply dictates, or with "replies exhausted" if none does |
| SpeechText.PollBlocksNumbered | meeting_pipeline.py:92-113 | every poll block is the block of the reply at its own position, numbered 1, 2, 3, … in arrival order, and only status-bearing replies get one |
| SpeechText.FailedRun | meeting_pipeline.py:112-153 | on `failed` the failing reply's block is the last one written; no final block is written; the exception carries that reply |
| SpeechText.UnexpectedRun | meeting_pipeline.py:103-106 | "Unexpected response format" is raised exactly when the loop stops at a reply with no status; that reply is counted but gets no block |
| SpeechText.FinishedRun | meeting_pipeline.py:155-177 | the run returns `(T, path)` exactly when it stops at a `finished` reply whose results hold transcript `T`; the last block is then the final block holding `T`, after one poll block per reply read |
| SpeechText.NoTranscriptRun | meeting_pipeline.py:163-177 | "No transcript found in final results" comes only from a `finished` reply lacking `results` or `transcript`; when `results` is present an empty final transcript was still written |
| SpeechText.RunQuota | meeting_pipeline.py:116-120 | last write wins: the quota after a run is the one from the latest reply read that had a status, `results` and "remaining seconds"; with none, it is the quota held before |
| PyString.Split | meeting_pipeline.py:464 | `split(sep)` cuts left to right at each occurrence of `sep` that does not overlap an earlier cut; its pieces joined with `sep` give the text back |
| PyString.SplitLeftmost | meeting_pipeline.py:466 | the pieces of `split(sep)` are the leftmost decomposition: each piece but the last ends at the first occurrence of `sep` after its start, and the last piece holds no `sep` |
| PyString.SplitJoin | meeting_pipeline.py:533 | splitting joined pieces gives those pieces back, when no occurrence of the separator starts inside a piece |
| PyString.SplitSeveralIff | meeting_pipeline.py:427-433 | `split(sep)` gives more than one piece exactly when `sep` occurs in the text |
| PyString.StripChars | meeting_pipeline.py:543 | `strip(chars)` is `lstrip(chars)` then `rstrip(chars)`; the contracts of `LStripChars` and `RStripChars` say each removes the longest run of `chars` from its end and nothing else; StripEnds states the result |
| PyString.Strip | meeting_pipeline.py:473 | `strip()` is `strip(chars)` with the characters for which `isspace()` holds: the longest run of them is removed from the front, then from the back |
| PyString.StripEnds | meeting_pipeline.py:536 | what `strip(chars)` leaves is empty or begins and ends with a character it does not remove |
| PyString.StripBlank | meeting_pipeline.py:485-488 | `strip()` yields the empty string exactly when the text is blank |
| PyString.StripTwice | meeting_pipeline.py:543 | `strip()` is idempotent |
| PyString.NatToString | meeting_pipeline.py:113 | the decimal digits of a poll number: non-empty, all digits, one digit exactly below 10 |
| PyString.NatToStringValue | meeting_pipeline.py:113 | `str(n)`: the digits written stand for `n`, with no leading zero unless `n` is 0 |
| PyString.IntToString | meeting_pipeline.py:120 | `str(n)` of the quota: non-empty, starting with `-` exactly when `n` is negative |
| PyString.IntToStringValue | meeting_pipeline.py:120 | `str(n)` of the quota: for a negative `n`, `-` then digits that stand for `-n`; otherwise digits that stand for `n` |
| PdfText.SplitTranscriptIntoParagraphs | meeting_pipeline.py:462-488 | the imperative splitter returns exactly `Paragraphs(text)` |
| PdfText.SentenceParagraphs | meeting_pipeline.py:467-486 | sentence mode: the stripped texts of the groups of the `". "` sentences; ParagraphsOfSentences states its properties |
| PdfText.Texts | meeting_pipeline.py:479-486 | one stripped paragraph text per group, each the stripped `Assemble` of its group, in order |
| PdfText.Piece | meeting_pipeline.py:473-475 | a sentence adds its stripped text, followed by `. ` unless the unstripped sentence ends with a period |
| PdfText.Assemble | meeting_pipeline.py:472-483 | a paragraph's text is its sentences' pieces joined by one space |
| PdfText.Groups | meeting_pipeline.py:472-486 | a paragraph closes at the first sentence after which it holds five sentences, or three or more and over 200 characters; what is left open at the end is the last paragraph |
| PdfText.Closes | meeting_pipeline.py:478 | a paragraph closes once it holds five sentences, or three or more with its text over 200 characters |
| PdfText.Paragraphs | meeting_pipeline.py:488 | no paragraph is blank |
| PdfText.NonBlank | meeting_pipeline.py:488 | the filter keeps exactly the non-blank elements, and only elements of its input |
| PdfText.NonBlankKeepsAll | meeting_pipeline.py:488 | the final filter drops nothing from a list without blank elements |
| PdfText.NonBlankAppend | meeting_pipeline.py:488 | the filter keeps order and repeats: filtering two lists one after the other gives the two results one after the other |
| PdfText.ParagraphsAtBlankLines | meeting_pipeline.py:464-466 | with a blank line in the text, the paragraphs are its non-blank `"\n\n"` blocks, in order, and those blocks make up the whole text |
| PdfText.ParagraphsOfSentences | meeting_pipeline.py:467-486 | without a blank line every `". "` sentence lands in exactly one paragraph, in order; each paragraph has 1 to 5 sentences; a paragraph ends where the closing rule first holds; all but the last satisfy it |
| PdfText.GroupsFlatten | meeting_pipeline.py:472-486 | grouping the sentences loses, adds and reorders none of them |
| PdfText.GroupsBounded | meeting_pipeline.py:476-483 | every paragraph has one to five sentences and does not close before its last sentence |
| PdfText.GroupsClosed | meeting_pipeline.py:478-481 | every paragraph except the last was closed by the rule (five sentences, or three or more over 200 characters) |
| PdfText.AssembleNotBlank | meeting_pipeline.py:473-475 | a paragraph of at least one sentence is not blank, even after `strip()` |
| PdfText.TextsNotBlank | meeting_pipeline.py:479-486 | sentence mode never produces a blank paragraph |
| PdfText.ClassifyLine | meeting_pipeline.py:536-553 | a line is stripped first; then it is a spacer if empty, a header (`strip('*')` then `strip()`) if it starts and ends with `**`, a bullet (`• ` and the stripped rest) if it starts with `- `, and body text otherwise |
| PdfText.ClassifyLineCases | meeting_pipeline.py:535-553 | a blank line is a spacer; a `**…**` line is a header; a `- ` line is a bullet; anything else is body text; header and bullet texts are stripped; body text is the stripped line |
| PdfText.FormatSummaryContent | meeting_pipeline.py:530-555 | exactly one item per `\n`-separated line, in order |
| PdfText.ClassifyWritten | meeting_pipeline.py:536-553 | a well-formed `**title**`, `- point`, text or blank line is shown as what it was written as (header `title`, bullet `• point`, body, spacer) |
| PdfText.FormatWrittenSummary | meeting_pipeline.py:530-555 | a summary written as well-formed lines is shown line for line as written |
| PdfText.ExtractTranscript | meeting_pipeline.py:427-436 | when either marker is in the file the result is already stripped; when neither is, it is the fixed error message |
| PdfText.ExtractAfterFirstFinal | meeting_pipeline.py:427-429 | with a final marker present, the transcript is the stripped text after the first marker, up to the next one |
| PdfText.ExtractBetweenFinals | meeting_pipeline.py:427-429 | with two final markers, the transcript is the stripped text between the first and the second |
| PdfText.ExtractAfterOnlyFinal | meeting_pipeline.py:427-429 | with one final marker, the transcript is everything after it, stripped |
| PdfText.ExtractFallback | meeting_pipeline.py:430-434 | without a final marker, the transcript is the first `TRANSCRIPT CONTENT:` section cut at `WORD-LEVEL TIMESTAMPS:`, stripped |
| PdfText.ExtractContentToEnd | meeting_pipeline.py:430-434 | without a final marker, a first content section with no timestamps marker runs to the end of the file and is the transcript, stripped |
| PdfText.ExtractContentToNext | meeting_pipeline.py:430-434 | without a final marker, a first content section with no timestamps marker runs to the next `TRANSCRIPT CONTENT:` and is the transcript, stripped |
| PdfText.ExtractWithoutMarkers | meeting_pipeline.py:435-436 | with neither marker, the fixed error message is shown |
| RoundTrip.ExtractFromFinalBlock | meeting_pipeline.py:159-167 | a final block appended after marker-free text gives back its transcript, stripped |
| RoundTrip.LogEndsWithFinal | meeting_pipeline.py:159-167 | a file whose last append is the final block gives back that block's transcript, stripped |
| RoundTrip.FinishedLogRoundTrip | meeting_pipeline.py:155-175 | after a run that returned `(T, path)`, the extraction reads `strip(T)` back from the file the run wrote |
| Batch.RFind | meeting_pipeline.py:605 | `rfind`: the position of the last occurrence, or -1 when there is none |
| Batch.Stem | meeting_pipeline.py:605 | `PurePath.stem` as in Python 3.13 and earlier: the name is cut at its last dot when that dot is neither its first nor its last character |
| Batch.StemCutsLastSuffix | meeting_pipeline.py:605 | the stem is a prefix of the name; when it is shorter, the name continues with a dot and no later dot, and that dot is not the first or the last character; when it is the whole name, no such dot exists |
| Batch.StemOfRecording | meeting_pipeline.py:605 | the stem of `<name>.webm` is `name`, for any non-empty name |
| Batch.NeedsTranscription | meeting_pipeline.py:606-608 | a recording needs transcription when `<stem>_transcript.pdf` is not in the output directory; NeedingTranscriptionIff states it for the filter |
| Batch.NeedingTranscription | meeting_pipeline.py:604-614 | the recordings whose `<stem>_transcript.pdf` is not in the output directory, in input order |
| Batch.GetFilesNeedingTranscription | meeting_pipeline.py:600-614 | the loop returns exactly `NeedingTranscription` of its input |
| Batch.NeedingTranscriptionIff | meeting_pipeline.py:604-609 | a recording is returned exactly when it is in the input and its `<stem>_transcript.pdf` is not in the output directory |
| Batch.NeedingTranscriptionAppend | meeting_pipeline.py:604-614 | the filter keeps the input order: filtering two batches one after the other gives the two results one after the other |
| Batch.NeedingTranscriptionTwice | meeting_pipeline.py:600-614 | filtering the result again changes nothing |

## Left out

- HTTP calls (`requests.post`, `requests.get`, `response.json()`) are replaced by a finite sequence of replies given as a parameter.
- The infinite `while True` loop cannot be modelled over finite replies. A run that uses up the replies without a terminal one ends with the extra outcome `RepliesExhausted`; the program itself would poll again.
- `time.sleep(15)` and logging have no observable effect on the model and are left out.
- Real file I/O is not modelled.
  - `open`, `mkdir` and reading the file back are left out.
  - The full-transcript file is a `TextFile` object handed to the loop, already at the transcript path, holding the blocks written to it; `RenderFile` gives its exact text.
- `datetime.now()` readings are opaque strings: each reply comes with its clock reading, and the header's creation time is a parameter.
- Float formatting of word offsets and confidences (`:.2f`, `:.3f`) is left out; each offset line is an opaque string.
- `json.dumps` of speaker records is left out; each record is an opaque string.
- The quota is an integer; a fractional "remaining seconds" value is not modelled.
- SpeechText.Response: replies are assumed well-typed. Each field is either missing or has its expected type, so null and mistyped JSON values are left out. The model does not capture these cases:
  - a `"remaining seconds": null` beside "results": the code sets the quota to `None` and writes `Remaining seconds: None` (meeting_pipeline.py:118-120);
  - a null or non-string "status": the code keeps polling and writes `Status: None` (meeting_pipeline.py:108-113);
  - a non-string "transcript": `f.write` raises `TypeError`.
- `get_remaining_minutes` is left out because it uses float division.
- `ClaudeClient` is left out: the Anthropic SDK call, prompt file loading and `str.format` templating are foreign calls and I/O.
- reportlab document construction, styles and colours are left out.
  - Summary items are the datatype `Item`.
  - The transcript PDF's loop that adds each stripped paragraph (meeting_pipeline.py:441-443) is not part of this model.
- `find_webm_files`, `move_webm_files`, `check_environment` and `main` are filesystem and environment plumbing and are left out.
- Batch.GetFilesNeedingTranscription: a recording is given by its file name only, and the output directory by the set of file names in it. `Stem` cuts at the last dot only when it is neither the first nor the last character, as `PurePath.stem` does in Python 3.13 and earlier.
- RoundTrip.FinishedLogRoundTrip: it requires that nothing written before the final block contains `FINAL COMPLETE TRANSCRIPT:`, besides `T` itself not containing it. `T` alone is not enough, because an earlier poll's transcript or summary could contain the marker, and the extraction would then stop there. The condition is stated on the text written before the final block; no lemma derives it from the replies.

=== FILE: batch.dfy ===
/**
 * The batch processor's choice of recordings to transcribe: a `.webm` recording needs
 * transcription when the output directory has no transcript PDF named after its stem.
 * A recording is given by its file name; the output directory by the set of names in it.
 */
module Batch {
  /** Position of the last `c` in `s`, or -1 (Python's `s.rfind(c)`). */
  function RFind(s: string, c: char): (i: int)
    ensures -1 <= i < |s|
    ensures 0 <= i ==> s[i] == c
    ensures forall j :: i < j < |s| ==> s[j] != c
    decreases |s|
  {
    if s == [] then -1
    else if s[|s| - 1] == c then |s| - 1
    else RFind(s[..|s| - 1], c)
  }

  /** `PurePath.stem` of a file name: the name without its last suffix. */
  function Stem(name: string): string {
    var i := RFind(name, '.');
    if 0 < i < |name| - 1 then name[..i] else name
  }

  /**
   * The stem is a prefix of the name. The name is cut just before its last dot when that dot is
   * neither its first nor its last character, and is kept whole otherwise.
   */
  lemma StemCutsLastSuffix(name: string)
    ensures var r := Stem(name);
      && |r| <= |name| && r == name[..|r|]
      && (|r| < |name| ==>
          && 0 < |r| < |name| - 1 && name[|r|] == '.'
          && forall j :: |r| < j < |name| ==> name[j] != '.')
      && (|r| == |name| ==> forall j :: 0 < j < |name| - 1 && name[j] == '.' ==> name[|name| - 1] == '.')
  {
  }

  /** Name of the transcript PDF written for the recording with stem `baseName`. */
  function TranscriptPdfName(baseName: string): string {
    baseName + "_transcript.pdf"
  }

  /** A recording needs transcription when its transcript PDF is not in the output directory. */
  predicate NeedsTranscription(webmFile: string, existing: set<string>) {
    TranscriptPdfName(Stem(webmFile)) !in existing
  }

  /** The recordings that need transcription, in their original order. */
  function NeedingTranscription(webmFiles: seq<string>, existing: set<string>): seq<string>
    decreases |webmFiles|
  {
    if webmFiles == [] then []
    else
      var last := webmFiles[|webmFiles| - 1];
      NeedingTranscription(webmFiles[..|webmFiles| - 1], existing)
        + (if NeedsTranscription(last, existing) then [last] else [])
  }

  /** The stem of `<name>.webm` is `name`, for any name that is not empty. */
  lemma StemOfRecording(name: string)
    requires name != []
    ensures Stem(name + ".webm") == name
  {
    var file := name + ".webm";
    var n := |name|;
    assert file[n] == '.';
    assert file[n + 1] == 'w' && file[n + 2] == 'e' && file[n + 3] == 'b' && file[n + 4] == 'm';
    var i := RFind(file, '.');
    assert i == n;
    assert file[..n] == name;
  }

  /** A recording is kept exactly when it is one of the inputs and has no transcript PDF yet. */
  lemma {:induction false} NeedingTranscriptionIff(webmFiles: seq<string>, existing: set<string>, f: string)
    ensures f in NeedingTranscription(webmFiles, existing) <==> f in webmFiles && NeedsTranscription(f, existing)
    decreases |webmFiles|
  {
    if webmFiles != [] {
      var init := webmFiles[..|webmFiles| - 1];
      NeedingTranscriptionIff(init, existing, f);
      assert webmFiles == init + [webmFiles[|webmFiles| - 1]];
    }
  }

  /** Filtering a batch in two parts gives the two filtered parts, one after the other. */
  lemma {:induction false} NeedingTranscriptionAppend(a: seq<string>, b: seq<string>, existing: set<string>)
    ensures NeedingTranscription(a + b, existing) == NeedingTranscription(a, existing) + NeedingTranscription(b, existing)
    decreases |b|
  {
    if b == [] {
      assert a + b == a;
    } else {
      var init := b[..|b| - 1];
      NeedingTranscriptionAppend(a, init, existing);
      assert (a + b)[..|a + b| - 1] == a + init;
      assert (a + b)[|a + b| - 1] == b[|b| - 1];
    }
  }

  /** Every recording the filter keeps still needs transcription, so filtering again keeps them all. */
  lemma {:induction false} NeedingTranscriptionTwice(webmFiles: seq<string>, existing: set<string>)
    ensures NeedingTranscription(NeedingTranscription(webmFiles, existing), existing)
      == NeedingTranscription(webmFiles, existing)
    decreases |webmFiles|
  {
    if webmFiles != [] {
      var init := webmFiles[..|webmFiles| - 1];
      var last := webmFiles[|webmFiles| - 1];
      var kept := if NeedsTranscription(last, existing) then [last] else [];
      NeedingTranscriptionTwice(init, existing);
      NeedingTranscriptionAppend(NeedingTranscription(init, existing), kept, existing);
      if NeedsTranscription(last, existing) {
        assert NeedingTranscription([last], existing) == NeedingTranscription([], existing) + [last];
      }
    }
  }

  /** `BatchProcessor.get_files_needing_transcription`, with the output directory's names given. */
  method GetFilesNeedingTranscription(webmFiles: seq<string>, existing: set<string>) returns (filesToProcess: seq<string>)
    ensures filesToProcess == NeedingTranscription(webmFiles, existing)
  {
    filesToProcess := [];
    for i := 0 to |webmFiles|
      invariant filesToProcess == NeedingTranscription(webmFiles[..i], existing)
    {
      var webmFile := webmFiles[i];
      var baseName := Stem(webmFile);
      var transcriptPdf := TranscriptPdfName(baseName);
      assert webmFiles[..i + 1][..i] == webmFiles[..i];
      if transcriptPdf !in existing {
        filesToProcess := filesToProcess + [webmFile];
      }
    }
    assert webmFiles[..|webmFiles|] == webmFiles;
  }
}

=== FILE: pdf_text.dfy ===
/**
 * The text side of the PDF generator: how the transcript is cut into paragraphs, how each line
 * of a summary is classified, and how the transcript is found again in the full-transcript file.
 */
module PdfText {
  import opened Wrappers
  import opened PyString
  import opened TranscriptLog

  // ---------------------------------------------------------------- paragraphs

  /** `[p for p in ps if p.strip()]`: the elements that are not blank, in their order. */
  function NonBlank(ps: seq<string>): (r: seq<string>)
    ensures |r| <= |ps|
    ensures forall k :: 0 <= k < |r| ==> !IsBlank(r[k]) && r[k] in ps
    ensures forall k :: 0 <= k < |ps| && !IsBlank(ps[k]) ==> ps[k] in r
    decreases |ps|
  {
    if ps == [] then []
    else (if IsBlank(ps[0]) then [] else [ps[0]]) + NonBlank(ps[1..])
  }

  /** The filter keeps order and repeats: filtering two lists one after the other gives the two results one after the other. */
  lemma {:induction false} NonBlankAppend(a: seq<string>, b: seq<string>)
    ensures NonBlank(a + b) == NonBlank(a) + NonBlank(b)
    decreases |a|
  {
    if a == [] {
      assert a + b == b;
    } else {
      var ab := a + b;
      var head := if IsBlank(a[0]) then [] else [a[0]];
      assert ab[0] == a[0] && ab[1..] == a[1..] + b;
      assert NonBlank(ab) == head + NonBlank(a[1..] + b);
      NonBlankAppend(a[1..], b);
    }
  }

  /** Dropping the blank elements of a list that has none changes nothing. */
  lemma {:induction false} NonBlankKeepsAll(ps: seq<string>)
    requires forall k :: 0 <= k < |ps| ==> !IsBlank(ps[k])
    ensures NonBlank(ps) == ps
    decreases |ps|
  {
    if ps != [] {
      NonBlankKeepsAll(ps[1..]);
      assert [ps[0]] + ps[1..] == ps;
    }
  }

  /**
   * What one sentence adds to the paragraph being built: the sentence stripped, then ". " unless
   * the sentence as split (before stripping) ends with a period.
   */
  function Piece(sentence: string): string {
    Strip(sentence) + (if EndsWith(sentence, ".") then "" else ". ")
  }

  /** The text of a paragraph built from the sentences `g`: their pieces, separated by a space. */
  function Assemble(g: seq<string>): string
    decreases |g|
  {
    if g == [] then []
    else if |g| == 1 then Piece(g[0])
    else Assemble(g[..|g| - 1]) + " " + Piece(g[|g| - 1])
  }

  /** The rule that closes a paragraph once its sentences are `g`. */
  predicate Closes(g: seq<string>) {
    |g| >= 5 || (|g| >= 3 && |Assemble(g)| > 200)
  }

  /**
   * How the sentences `ss` fall into paragraphs when the paragraph under construction already
   * holds the sentences `open`: a paragraph ends at the first sentence after which it closes,
   * and what is left open at the end becomes the last paragraph.
   */
  function Groups(ss: seq<string>, open: seq<string>): seq<seq<string>>
    decreases |ss|
  {
    if ss == [] then (if open == [] then [] else [open])
    else if Closes(open + [ss[0]]) then [open + [ss[0]]] + Groups(ss[1..], [])
    else Groups(ss[1..], open + [ss[0]])
  }

  /** The stripped text of each paragraph. */
  function Texts(gs: seq<seq<string>>): (ps: seq<string>)
    ensures |ps| == |gs|
    ensures forall k :: 0 <= k < |gs| ==> ps[k] == Strip(Assemble(gs[k]))
    decreases |gs|
  {
    if gs == [] then [] else [Strip(Assemble(gs[0]))] + Texts(gs[1..])
  }

  /** The paragraphs of a text without blank lines: its `". "`-separated sentences, grouped. */
  function SentenceParagraphs(text: string): seq<string> {
    Texts(Groups(Split(text, ". "), []))
  }

  /**
   * The paragraphs the transcript PDF shows: the blank-line separated blocks when there are
   * several, the grouped sentences otherwise; blank paragraphs are dropped either way.
   */
  function Paragraphs(text: string): (r: seq<string>)
    ensures forall k :: 0 <= k < |r| ==> !IsBlank(r[k])
  {
    var blocks := Split(text, "\n\n");
    if |blocks| == 1 then NonBlank(SentenceParagraphs(text)) else NonBlank(blocks)
  }

  /** The sentences of paragraphs laid end to end. */
  function Flatten(gs: seq<seq<string>>): seq<string>
    decreases |gs|
  {
    if gs == [] then [] else gs[0] + Flatten(gs[1..])
  }

  /** No non-empty prefix of `g` closes: `g` is a paragraph still under construction. */
  predicate StaysOpen(g: seq<string>) {
    forall j :: 1 <= j <= |g| ==> !Closes(g[..j])
  }

  /** A paragraph can hold a fifth sentence only if it closes there. */
  lemma OpenIsShort(g: seq<string>)
    requires StaysOpen(g)
    ensures |g| <= 4
  {
    if g != [] {
      assert g[..|g|] == g;
    }
  }

  /** One step of the grouping, at sentence `i`. */
  lemma GroupsAt(ss: seq<string>, i: nat, open: seq<string>)
    requires i < |ss|
    ensures Groups(ss[i..], open) ==
      if Closes(open + [ss[i]]) then [open + [ss[i]]] + Groups(ss[i + 1..], [])
      else Groups(ss[i + 1..], open + [ss[i]])
  {
    assert ss[i..][0] == ss[i];
    assert ss[i..][1..] == ss[i + 1..];
  }

  /** The grouping keeps every sentence, in order. */
  lemma {:induction false} GroupsFlatten(ss: seq<string>, open: seq<string>)
    ensures Flatten(Groups(ss, open)) == open + ss
    decreases |ss|
  {
    if ss == [] {
      if open != [] {
        assert Flatten([open]) == open + Flatten([]);
      }
    } else {
      var g := open + [ss[0]];
      assert g + ss[1..] == open + ss;
      if Closes(g) {
        GroupsFlatten(ss[1..], []);
        var rest := Groups(ss[1..], []);
        assert ([g] + rest)[1..] == rest;
      } else {
        GroupsFlatten(ss[1..], g);
      }
    }
  }

  /** Every paragraph holds one to five sentences, and closes at its last sentence and no earlier. */
  lemma {:induction false} GroupsBounded(ss: seq<string>, open: seq<string>)
    requires StaysOpen(open)
    ensures var gs := Groups(ss, open);
      && (forall k :: 0 <= k < |gs| ==> 1 <= |gs[k]| <= 5)
      && (forall k, j :: 0 <= k < |gs| && 1 <= j < |gs[k]| ==> !Closes(gs[k][..j]))
    decreases |ss|
  {
    OpenIsShort(open);
    if ss != [] {
      var g := open + [ss[0]];
      var gs := Groups(ss, open);
      if Closes(g) {
        GroupsBounded(ss[1..], []);
        assert gs == [g] + Groups(ss[1..], []);
        forall k | 0 <= k < |gs| ensures 1 <= |gs[k]| <= 5 {
          if k > 0 { assert gs[k] == Groups(ss[1..], [])[k - 1]; }
        }
        forall k, j | 0 <= k < |gs| && 1 <= j < |gs[k]| ensures !Closes(gs[k][..j]) {
          if k == 0 {
            assert gs[k][..j] == open[..j];
          } else {
            assert gs[k] == Groups(ss[1..], [])[k - 1];
          }
        }
      } else {
        forall j | 1 <= j <= |g| ensures !Closes(g[..j]) {
          if j < |g| {
            assert g[..j] == open[..j];
          } else {
            assert g[..j] == g;
          }
        }
        GroupsBounded(ss[1..], g);
        assert gs == Groups(ss[1..], g);
      }
    }
  }

  /** Every paragraph but the last one was closed by the closing rule. */
  lemma {:induction false} GroupsClosed(ss: seq<string>, open: seq<string>)
    ensures var gs := Groups(ss, open);
      forall k :: 0 <= k < |gs| - 1 ==> Closes(gs[k])
    decreases |ss|
  {
    if ss != [] {
      var g := open + [ss[0]];
      var gs := Groups(ss, open);
      if Closes(g) {
        GroupsClosed(ss[1..], []);
        assert gs == [g] + Groups(ss[1..], []);
        forall k | 0 < k < |gs| - 1 ensures Closes(gs[k]) {
          assert gs[k] == Groups(ss[1..], [])[k - 1];
        }
      } else {
        GroupsClosed(ss[1..], g);
        assert gs == Groups(ss[1..], g);
      }
    }
  }

  /** Every piece holds a character that `strip()` keeps. */
  lemma PieceNotBlank(sentence: string)
    ensures !IsBlank(Piece(sentence))
  {
    if EndsWith(sentence, ".") {
      PeriodNotBlank(sentence);
      StripNotBlank(sentence);
      var stripped := Strip(sentence);
      assert Piece(sentence) == stripped + [];
      assert stripped + [] == stripped;
    } else {
      PeriodNotBlank(Strip(sentence) + ". ");
    }
  }

  /** A string ending in a period, or in a period and a space, is not blank. */
  lemma PeriodNotBlank(s: string)
    requires EndsWith(s, ".") || EndsWith(s, ". ")
    ensures !IsBlank(s)
  {
    if EndsWith(s, ".") {
      assert s[|s| - 1] == s[|s| - 1..][0];
      NotBlankAt(s, |s| - 1);
    } else {
      assert s[|s| - 2] == s[|s| - 2..][0];
      NotBlankAt(s, |s| - 2);
    }
  }

  /** A string that ends with a non-blank part is not blank. */
  lemma EndNotBlank(x: string, y: string)
    requires !IsBlank(y)
    ensures !IsBlank(x + y)
  {
    var i :| 0 <= i < |y| && y[i] !in Whitespace;
    assert (x + y)[|x| + i] == y[i];
    NotBlankAt(x + y, |x| + i);
  }

  /** A paragraph of at least one sentence has text that survives `strip()`. */
  lemma AssembleNotBlank(g: seq<string>)
    requires g != []
    ensures !IsBlank(Assemble(g)) && !IsBlank(Strip(Assemble(g)))
  {
    PieceNotBlank(g[|g| - 1]);
    if |g| > 1 {
      EndNotBlank(Assemble(g[..|g| - 1]) + " ", Piece(g[|g| - 1]));
    }
    StripNotBlank(Assemble(g));
  }

  /** Sentence mode never produces a blank paragraph, so the final filter drops nothing. */
  lemma TextsNotBlank(gs: seq<seq<string>>)
    requires forall k :: 0 <= k < |gs| ==> gs[k] != []
    ensures forall k :: 0 <= k < |Texts(gs)| ==> !IsBlank(Texts(gs)[k])
  {
    forall k | 0 <= k < |gs| ensures !IsBlank(Texts(gs)[k]) {
      AssembleNotBlank(gs[k]);
    }
  }

  /** With a blank line in the text, the paragraphs are its non-blank blocks, in order. */
  lemma ParagraphsAtBlankLines(text: string)
    requires Contains(text, "\n\n")
    ensures Paragraphs(text) == NonBlank(Split(text, "\n\n"))
    ensures Join(Split(text, "\n\n"), "\n\n") == text
  {
    SplitSeveralIff(text, "\n\n");
  }

  /**
   * Without a blank line, every sentence is kept in order, every paragraph is the stripped text
   * of one to five sentences, and each paragraph ends exactly where the closing rule first holds.
   */
  lemma ParagraphsOfSentences(text: string)
    requires !Contains(text, "\n\n")
    ensures var gs := Groups(Split(text, ". "), []);
      && Paragraphs(text) == Texts(gs)
      && Flatten(gs) == Split(text, ". ")
      && (forall k :: 0 <= k < |gs| ==> 1 <= |gs[k]| <= 5)
      && (forall k, j :: 0 <= k < |gs| && 1 <= j < |gs[k]| ==> !Closes(gs[k][..j]))
      && (forall k :: 0 <= k < |gs| - 1 ==> Closes(gs[k]))
  {
    SplitSeveralIff(text, "\n\n");
    var gs := Groups(Split(text, ". "), []);
    GroupsFlatten(Split(text, ". "), []);
    GroupsBounded(Split(text, ". "), []);
    GroupsClosed(Split(text, ". "), []);
    assert [] + Split(text, ". ") == Split(text, ". ");
    TextsNotBlank(gs);
    NonBlankKeepsAll(Texts(gs));
  }

  /**
   * Appending a sentence's stripped text, and ". " when the sentence lacks a final period, to the
   * open paragraph's text (with its trailing space) gives the text of the longer paragraph.
   */
  lemma Extend(open: seq<string>, sentence: string, before: string, after: string)
    requires before == if open == [] then [] else Assemble(open) + " "
    requires after == if EndsWith(sentence, ".") then before + Strip(sentence)
      else before + Strip(sentence) + ". "
    ensures after == Assemble(open + [sentence])
  {
    var stripped := Strip(sentence);
    var tail: string := if EndsWith(sentence, ".") then [] else ". ";
    assert Piece(sentence) == stripped + tail;
    assert after == before + stripped + tail;
    Associate(before, stripped, tail);
    AssembleSnoc(open, sentence);
    if open != [] {
      Associate(Assemble(open), " ", Piece(sentence));
    }
  }

  /** Appending a sentence to a paragraph appends its piece after a space. */
  lemma AssembleSnoc(g: seq<string>, sentence: string)
    ensures Assemble(g + [sentence]) ==
      if g == [] then Piece(sentence) else Assemble(g) + " " + Piece(sentence)
  {
    assert (g + [sentence])[..|g|] == g;
  }

  /** String concatenation regrouped, stated once so the loop proof can cite it. */
  lemma Associate(a: string, b: string, c: string)
    ensures a + b + c == a + (b + c)
  {
  }

  /** The open paragraph's text, with its trailing space, strips to the paragraph's text. */
  lemma OpenText(g: seq<string>)
    requires g != []
    ensures Strip(Assemble(g) + " ") == Strip(Assemble(g)) != []
  {
    StripSurrounded([], Assemble(g), " ", Whitespace);
    assert [] + Assemble(g) + " " == Assemble(g) + " ";
    AssembleNotBlank(g);
    StripBlank(Strip(Assemble(g)));
  }

  /** Closing the paragraph `g` moves its text from the pending paragraphs to the collected ones. */
  lemma CloseStep(collected: seq<string>, g: seq<string>, rest: seq<seq<string>>)
    ensures collected + [Strip(Assemble(g))] + Texts(rest) == collected + Texts([g] + rest)
  {
    assert ([g] + rest)[1..] == rest;
  }

  /** After the last sentence, the open paragraph, if any, is the last one. */
  lemma FinishStep(open: seq<string>, current: string, collected: seq<string>, target: seq<string>)
    requires current == if open == [] then [] else Assemble(open) + " "
    requires collected + Texts(Groups([], open)) == target
    ensures (if Strip(current) != [] then collected + [Strip(current)] else collected) == target
  {
    if open == [] {
      assert collected + [] == collected;
    } else {
      OpenText(open);
      assert Texts([open]) == [Strip(Assemble(open))];
    }
  }

  /**
   * The paragraph splitter of the transcript PDF: a blank line splits the text into paragraphs;
   * a text without one is cut into sentences that are collected into paragraphs.
   */
  method SplitTranscriptIntoParagraphs(text: string) returns (paragraphs: seq<string>)
    ensures paragraphs == Paragraphs(text)
  {
    var blocks := Split(text, "\n\n");
    var collected := blocks;
    if |blocks| == 1 {
      var sentences := Split(text, ". ");
      collected := [];
      var current: string := [];
      var sentenceCount: nat := 0;
      ghost var open: seq<string> := [];
      for i := 0 to |sentences|
        invariant sentenceCount == |open|
        invariant current == if open == [] then [] else Assemble(open) + " "
        invariant collected + Texts(Groups(sentences[i..], open)) == SentenceParagraphs(text)
      {
        var sentence := sentences[i];
        ghost var before := current;
        ghost var g := open + [sentence];
        GroupsAt(sentences, i, open);
        current := current + Strip(sentence);
        if !EndsWith(sentence, ".") {
          current := current + ". ";
        }
        sentenceCount := sentenceCount + 1;
        Extend(open, sentence, before, current);
        if (sentenceCount >= 3 && |current| > 200) || sentenceCount >= 5 {
          CloseStep(collected, g, Groups(sentences[i + 1..], []));
          collected := collected + [Strip(current)];
          current := [];
          sentenceCount := 0;
          open := [];
        } else if sentenceCount < 5 {
          current := current + " ";
          open := g;
        }
      }
      assert sentences[|sentences|..] == [];
      FinishStep(open, current, collected, SentenceParagraphs(text));
      if Strip(current) != [] {
        collected := collected + [Strip(current)];
      }
    }
    paragraphs := NonBlank(collected);
  }

  // ---------------------------------------------------------------- summary lines

  /** What the summary PDF shows for one line of the summary. */
  datatype Item =
    | Spacer
    | Header(text: string)
    | Bullet(text: string)
    | Body(text: string)

  /** A stripped line marked as a section header: it starts and ends with `**`. */
  predicate HeaderShaped(line: string) {
    StartsWith(line, "**") && EndsWith(line, "**")
  }

  /** How one line of the summary is shown. */
  function ClassifyLine(raw: string): Item {
    var line := Strip(raw);
    if line == [] then Spacer
    else if HeaderShaped(line) then Header(Strip(StripChars(line, {'*'})))
    else if StartsWith(line, "- ") then Bullet("• " + Strip(line[2..]))
    else Body(line)
  }

  /**
   * A blank line is a spacer; a line marked with `**` at both ends is a header; a line starting
   * with `- ` is a bullet; any other line is body text. Header and
   * bullet texts are stripped, and body text is the stripped line.
   */
  lemma ClassifyLineCases(raw: string)
    ensures var item := ClassifyLine(raw);
      && (item.Spacer? <==> IsBlank(raw))
      && (item.Header? <==> !IsBlank(raw) && HeaderShaped(Strip(raw)))
      && (item.Bullet? <==> !IsBlank(raw) && !HeaderShaped(Strip(raw)) && StartsWith(Strip(raw), "- "))
      && (item.Header? ==> Strip(item.text) == item.text)
      && (item.Bullet? ==> StartsWith(item.text, "• ") && Strip(item.text[2..]) == item.text[2..])
      && (item.Body? ==> item.text == Strip(raw) && !IsBlank(item.text))
  {
    StripBlank(raw);
    var line := Strip(raw);
    if line == [] {
    } else if HeaderShaped(line) {
      StripTwice(StripChars(line, {'*'}));
    } else if StartsWith(line, "- ") {
      StripTwice(line[2..]);
      assert ("• " + Strip(line[2..]))[2..] == Strip(line[2..]);
    } else {
      StripNotBlank(raw);
    }
  }

  /** The summary PDF's content: one item for each `\n`-separated line of the summary, in order. */
  function FormatSummaryContent(text: string): (items: seq<Item>)
    ensures var lines := Split(text, "\n");
      |items| == |lines| && forall k :: 0 <= k < |lines| ==> items[k] == ClassifyLine(lines[k])
  {
    var lines := Split(text, "\n");
    seq(|lines|, k requires 0 <= k < |lines| => ClassifyLine(lines[k]))
  }

  /** A summary line as it is written: blank, a `**title**` header, a `- point` bullet, or text. */
  datatype SummaryLine =
    | Blank
    | HeaderLine(title: string)
    | BulletLine(point: string)
    | TextLine(content: string)

  /** The text of a summary line. */
  function LineText(l: SummaryLine): string {
    match l
    case Blank => []
    case HeaderLine(title) => "**" + title + "**"
    case BulletLine(point) => "- " + point
    case TextLine(content) => content
  }

  /** What the summary PDF is meant to show for a summary line. */
  function Shown(l: SummaryLine): Item {
    match l
    case Blank => Spacer
    case HeaderLine(title) => Header(title)
    case BulletLine(point) => Bullet("• " + point)
    case TextLine(content) => Body(content)
  }

  /** One line of text whose first and last characters are not whitespace. */
  predicate Trimmed(t: string) {
    t != [] && t[0] !in Whitespace && t[|t| - 1] !in Whitespace && '\n' !in t
  }

  /**
   * The summary lines whose text means what the line says: a header title that does not itself
   * begin or end with `*`, a non-empty bullet point, and text that looks like neither.
   */
  predicate WellFormed(l: SummaryLine) {
    match l
    case Blank => true
    case HeaderLine(title) => Trimmed(title) && title[0] != '*' && title[|title| - 1] != '*'
    case BulletLine(point) => Trimmed(point)
    case TextLine(content) => Trimmed(content) && !HeaderShaped(content) && !StartsWith(content, "- ")
  }

  /** A well-formed summary line is shown as what it was written as. */
  lemma ClassifyWritten(l: SummaryLine)
    requires WellFormed(l)
    ensures ClassifyLine(LineText(l)) == Shown(l)
  {
    match l
    case Blank =>
    case HeaderLine(title) => HeaderWritten(title);
    case BulletLine(point) => BulletWritten(point);
    case TextLine(content) =>
      StripClean(content, Whitespace);
      NotBlankAt(content, 0);
  }

  /** A `**title**` line is shown as a header with that title. */
  lemma HeaderWritten(title: string)
    requires WellFormed(HeaderLine(title))
    ensures ClassifyLine("**" + title + "**") == Header(title)
  {
    var line := "**" + title + "**";
    assert |line| == |title| + 4;
    assert line[..2] == "**" && line[|line| - 2..] == "**";
    StarsStripped(title);
    PunctuationNotSpace();
    StripClean(line, Whitespace);
    NotBlankAt(line, 0);
    StripClean(title, Whitespace);
  }

  /** `strip('*')` takes the two stars off each end of `**title**` and nothing more. */
  lemma StarsStripped(title: string)
    requires title != [] && title[0] != '*' && title[|title| - 1] != '*'
    ensures StripChars("**" + title + "**", {'*'}) == title
  {
    LeadingStars(title);
    TrailingStars(title);
  }

  /** The left strip stops at the title's first character. */
  lemma LeadingStars(title: string)
    requires title != [] && title[0] != '*'
    ensures LStripChars("**" + title + "**", {'*'}) == title + "**"
  {
    var inner := title + "**";
    assert "**" + title + "**" == "**" + inner;
    LStripPrepend("**", inner, {'*'});
    assert inner[0] == title[0];
    LStripKeeps(inner, {'*'});
  }

  /** The right strip stops at the title's last character. */
  lemma TrailingStars(title: string)
    requires title != [] && title[|title| - 1] != '*'
    ensures RStripChars(title + "**", {'*'}) == title
  {
    RStripAppend(title, "**", {'*'});
    RStripKeeps(title, {'*'});
  }

  /** A `- point` line is shown as a bullet with that point. */
  lemma BulletWritten(point: string)
    requires WellFormed(BulletLine(point))
    ensures ClassifyLine("- " + point) == Bullet("• " + point)
  {
    var line := "- " + point;
    assert line[0] == '-';
    assert line[..2] == "- " && line[2..] == point;
    PunctuationNotSpace();
    StripClean(line, Whitespace);
    NotBlankAt(line, 0);
    StripClean(point, Whitespace);
  }

  /** The texts of summary lines. */
  function WrittenLines(ls: seq<SummaryLine>): (lines: seq<string>)
    ensures |lines| == |ls|
  {
    seq(|ls|, k requires 0 <= k < |ls| => LineText(ls[k]))
  }

  /** The text of a summary written line by line. */
  function SummaryText(ls: seq<SummaryLine>): string {
    Join(WrittenLines(ls), "\n")
  }

  /** A well-formed summary line has no line break in it. */
  lemma NoBreakInLine(l: SummaryLine)
    requires WellFormed(l)
    ensures '\n' !in LineText(l)
  {
  }

  /** Splitting the written summary at line breaks cuts exactly between its lines. */
  lemma WrittenLinesLeftmost(ls: seq<SummaryLine>)
    requires ls != [] && forall k :: 0 <= k < |ls| ==> WellFormed(ls[k])
    ensures Leftmost(WrittenLines(ls), "\n")
  {
    var lines := WrittenLines(ls);
    forall k | 0 <= k < |lines|
      ensures NoneBefore(lines[k] + "\n", "\n", |lines[k]|) && !Contains(lines[k], "\n")
    {
      NoBreakInLine(ls[k]);
      NoCharOccurrence(lines[k], '\n');
    }
  }

  /** Each well-formed line of a written summary is shown as what it was written as. */
  lemma WrittenLineShown(lines: seq<string>, ls: seq<SummaryLine>, k: nat)
    requires lines == WrittenLines(ls) && k < |ls| && WellFormed(ls[k])
    ensures ClassifyLine(lines[k]) == Shown(ls[k])
  {
    ClassifyWritten(ls[k]);
  }

  /** Items classified from the lines of a well-formed summary are what those lines were written as. */
  lemma ItemsShown(items: seq<Item>, lines: seq<string>, ls: seq<SummaryLine>)
    requires lines == WrittenLines(ls) && forall k :: 0 <= k < |ls| ==> WellFormed(ls[k])
    requires |items| == |lines| && forall k :: 0 <= k < |lines| ==> items[k] == ClassifyLine(lines[k])
    ensures items == seq(|ls|, k requires 0 <= k < |ls| => Shown(ls[k]))
  {
    var shown := seq(|ls|, k requires 0 <= k < |ls| => Shown(ls[k]));
    forall k | 0 <= k < |ls| ensures items[k] == shown[k] {
      WrittenLineShown(lines, ls, k);
    }
  }

  /** A summary written as well-formed lines is shown line for line as what was written. */
  lemma FormatWrittenSummary(ls: seq<SummaryLine>)
    requires ls != [] && forall k :: 0 <= k < |ls| ==> WellFormed(ls[k])
    ensures FormatSummaryContent(SummaryText(ls)) == seq(|ls|, k requires 0 <= k < |ls| => Shown(ls[k]))
  {
    WrittenLinesLeftmost(ls);
    SplitJoin(WrittenLines(ls), "\n");
    ItemsShown(FormatSummaryContent(SummaryText(ls)), Split(SummaryText(ls), "\n"), ls);
  }

  // ---------------------------------------------------------------- finding the transcript

  /** What the transcript PDF shows when the file holds neither marker. */
  const ExtractionError: string := "Transcript processing error - please check the full transcript file."

  /**
   * The transcript as the PDF generator reads it from the full-transcript file: the text after the
   * first final marker, up to the next one; failing that, the text after the first content marker,
   * up to the next content marker and then cut at the timestamps marker; failing that, a fixed
   * error message.
   */
  function ExtractTranscript(content: string): (r: string)
    ensures Contains(content, FinalMarker) || Contains(content, ContentMarker) ==> Strip(r) == r
    ensures !Contains(content, FinalMarker) && !Contains(content, ContentMarker) ==> r == ExtractionError
  {
    SplitSeveralIff(content, FinalMarker);
    SplitSeveralIff(content, ContentMarker);
    var sections := Split(content, FinalMarker);
    if |sections| > 1 then
      StripTwice(sections[1]);
      Strip(sections[1])
    else
      var fallback := Split(content, ContentMarker);
      if |fallback| > 1 then
        StripTwice(Split(fallback[1], TimestampsMarker)[0]);
        Strip(Split(fallback[1], TimestampsMarker)[0])
      else ExtractionError
  }

  /** Each marker ends with a colon, its only colon. */
  lemma MarkersEndInColon()
    ensures FinalMarker[|FinalMarker| - 1] == ':' && ':' !in FinalMarker[..|FinalMarker| - 1]
    ensures ContentMarker[|ContentMarker| - 1] == ':' && ':' !in ContentMarker[..|ContentMarker| - 1]
    ensures TimestampsMarker[|TimestampsMarker| - 1] == ':' && ':' !in TimestampsMarker[..|TimestampsMarker| - 1]
  {
    assert FinalMarker[..|FinalMarker| - 1] == "FINAL COMPLETE TRANSCRIPT";
    assert ContentMarker[..|ContentMarker| - 1] == "TRANSCRIPT CONTENT";
    assert TimestampsMarker[..|TimestampsMarker| - 1] == "WORD-LEVEL TIMESTAMPS";
  }

  /** Splitting on a marker cuts first right after a prefix that does not contain it. */
  lemma SplitAfterMarkerFree(a: string, marker: string, rest: string)
    requires marker != [] && !Contains(a, marker)
    requires marker[|marker| - 1] !in marker[..|marker| - 1]
    ensures Split(a + marker + rest, marker) == [a] + Split(rest, marker)
  {
    FirstOccurrenceAfter(a, [], marker);
    assert a + [] == a;
    SplitFirst(a, marker, rest);
  }

  /** With a final marker present, the transcript is the stripped text up to the next one. */
  lemma {:induction false} ExtractAfterFirstFinal(a: string, rest: string)
    requires !Contains(a, FinalMarker)
    ensures ExtractTranscript(a + FinalMarker + rest) == Strip(Split(rest, FinalMarker)[0])
  {
    MarkersEndInColon();
    SplitAfterMarkerFree(a, FinalMarker, rest);
    var sections := Split(a + FinalMarker + rest, FinalMarker);
    assert |sections| > 1 && sections[1] == Split(rest, FinalMarker)[0];
  }

  /** Between the first and second final markers: that text, stripped. */
  lemma ExtractBetweenFinals(a: string, b: string, c: string)
    requires !Contains(a, FinalMarker) && !Contains(b, FinalMarker)
    ensures ExtractTranscript(a + FinalMarker + b + FinalMarker + c) == Strip(b)
  {
    MarkersEndInColon();
    assert a + FinalMarker + b + FinalMarker + c == a + FinalMarker + (b + FinalMarker + c);
    ExtractAfterFirstFinal(a, b + FinalMarker + c);
    SplitAfterMarkerFree(b, FinalMarker, c);
  }

  /** After the only final marker: everything that follows it, stripped. */
  lemma ExtractAfterOnlyFinal(a: string, b: string)
    requires !Contains(a, FinalMarker) && !Contains(b, FinalMarker)
    ensures ExtractTranscript(a + FinalMarker + b) == Strip(b)
  {
    ExtractAfterFirstFinal(a, b);
    SplitNoSep(b, FinalMarker);
  }

  /**
   * Without a final marker, the first content section is used: the stripped text between the
   * first content marker and the timestamps marker that follows it.
   */
  lemma ExtractFallback(a: string, b: string, c: string)
    requires !Contains(a + ContentMarker + b + TimestampsMarker + c, FinalMarker)
    requires !Contains(a, ContentMarker) && !Contains(b, ContentMarker) && !Contains(b, TimestampsMarker)
    ensures ExtractTranscript(a + ContentMarker + b + TimestampsMarker + c) == Strip(b)
  {
    SplitNoSep(a + ContentMarker + b + TimestampsMarker + c, FinalMarker);
    ContentSection(a, b, c);
  }

  /**
   * Without a final marker, a first content section with no timestamps marker in it runs to the
   * end of the file, and is used stripped.
   */
  lemma ExtractContentToEnd(a: string, b: string)
    requires !Contains(a + ContentMarker + b, FinalMarker)
    requires !Contains(a, ContentMarker) && !Contains(b, ContentMarker) && !Contains(b, TimestampsMarker)
    ensures ExtractTranscript(a + ContentMarker + b) == Strip(b)
  {
    SplitNoSep(a + ContentMarker + b, FinalMarker);
    MarkersEndInColon();
    SplitAfterMarkerFree(a, ContentMarker, b);
    SplitNoSep(b, ContentMarker);
    SplitNoSep(b, TimestampsMarker);
  }

  /**
   * Without a final marker, a first content section with no timestamps marker in it runs to the
   * next content marker, and is used stripped.
   */
  lemma ExtractContentToNext(a: string, b: string, c: string)
    requires !Contains(a + ContentMarker + b + ContentMarker + c, FinalMarker)
    requires !Contains(a, ContentMarker) && !Contains(b, ContentMarker) && !Contains(b, TimestampsMarker)
    ensures ExtractTranscript(a + ContentMarker + b + ContentMarker + c) == Strip(b)
  {
    SplitNoSep(a + ContentMarker + b + ContentMarker + c, FinalMarker);
    MarkersEndInColon();
    assert a + ContentMarker + b + ContentMarker + c == a + ContentMarker + (b + ContentMarker + c);
    SplitAfterMarkerFree(a, ContentMarker, b + ContentMarker + c);
    SplitAfterMarkerFree(b, ContentMarker, c);
    SplitNoSep(b, TimestampsMarker);
  }

  /** The first content section, cut at the timestamps marker that follows it. */
  lemma ContentSection(a: string, b: string, c: string)
    requires !Contains(a, ContentMarker) && !Contains(b, ContentMarker) && !Contains(b, TimestampsMarker)
    ensures var sections := Split(a + ContentMarker + b + TimestampsMarker + c, ContentMarker);
      |sections| > 1 && Split(sections[1], TimestampsMarker)[0] == b
  {
    MarkersEndInColon();
    var rest := b + TimestampsMarker + c;
    assert a + ContentMarker + b + TimestampsMarker + c == a + ContentMarker + rest;
    SplitAfterMarkerFree(a, ContentMarker, rest);
    var h := Split(rest, ContentMarker)[0];
    SectionReachesTimestamps(b, c);
    assert h == b + TimestampsMarker + rest[|b + TimestampsMarker|..|h|];
    SplitAfterMarkerFree(b, TimestampsMarker, rest[|b + TimestampsMarker|..|h|]);
  }

  /** A content section that starts with `b` runs at least to the end of the timestamps marker. */
  lemma SectionReachesTimestamps(b: string, c: string)
    requires !Contains(b, ContentMarker)
    ensures var h := Split(b + TimestampsMarker + c, ContentMarker)[0];
      |b + TimestampsMarker| <= |h| <= |b + TimestampsMarker + c| && h == (b + TimestampsMarker + c)[..|h|]
  {
    MarkersEndInColon();
    assert TimestampsMarker[|TimestampsMarker| - |ContentMarker|..][0] != ContentMarker[0];
    NoOccurrenceBeforeEndOf(b, TimestampsMarker, c, ContentMarker);
    SplitHeadPrefix(b + TimestampsMarker + c, ContentMarker, |b + TimestampsMarker|);
  }

  /** With neither a final nor a content marker, the error message is shown. */
  lemma ExtractWithoutMarkers(content: string)
    requires !Contains(content, FinalMarker) && !Contains(content, ContentMarker)
    ensures ExtractTranscript(content) == ExtractionError
  {
    SplitNoSep(content, FinalMarker);
    SplitNoSep(content, ContentMarker);
  }
}

=== FILE: pystring.dfy ===
/**
 * The few Python `str` operations the pipeline relies on, with Python's own semantics:
 * `split(sep)` (left-to-right, non-overlapping, always one more piece than separators cut),
 * `strip()` / `strip(chars)`, `startswith`, `endswith`, substring `in`, and `str(n)` for integers.
 */
module PyString {

  /** The characters for which Python's `str.isspace()` holds; `strip()` with no argument removes them. */
  const Whitespace: set<char> := {
    '\t', '\n', '\U{B}', '\U{C}', '\r', '\U{1C}', '\U{1D}', '\U{1E}', '\U{1F}', ' ',
    '\U{85}', '\U{A0}', '\U{1680}',
    '\U{2000}', '\U{2001}', '\U{2002}', '\U{2003}', '\U{2004}', '\U{2005}',
    '\U{2006}', '\U{2007}', '\U{2008}', '\U{2009}', '\U{200A}',
    '\U{2028}', '\U{2029}', '\U{202F}', '\U{205F}', '\U{3000}'
  }

  /** Punctuation that the model's strings are built from is not whitespace. */
  lemma PunctuationNotSpace()
    ensures '*' !in Whitespace && '-' !in Whitespace && '.' !in Whitespace && ':' !in Whitespace
  {
  }

  predicate AllIn(s: string, cs: set<char>) {
    forall i :: 0 <= i < |s| ==> s[i] in cs
  }

  /** Python's `not s.strip()`: the string is empty or all whitespace. */
  predicate IsBlank(s: string) {
    AllIn(s, Whitespace)
  }

  predicate StartsWith(s: string, prefix: string) {
    |prefix| <= |s| && s[..|prefix|] == prefix
  }

  predicate EndsWith(s: string, suffix: string) {
    |suffix| <= |s| && s[|s| - |suffix|..] == suffix
  }

  // ---------------------------------------------------------------- strip

  /** Python's `s.lstrip(cs)`: the suffix left after removing every leading character in `cs`. */
  function LStripChars(s: string, cs: set<char>): (r: string)
    ensures |r| <= |s| && r == s[|s| - |r|..]
    ensures forall i :: 0 <= i < |s| - |r| ==> s[i] in cs
    ensures r != [] ==> r[0] !in cs
    decreases |s|
  {
    if s != [] && s[0] in cs then LStripChars(s[1..], cs) else s
  }

  /** Python's `s.rstrip(cs)`: the prefix left after removing every trailing character in `cs`. */
  function RStripChars(s: string, cs: set<char>): (r: string)
    ensures |r| <= |s| && r == s[..|r|]
    ensures forall i :: |r| <= i < |s| ==> s[i] in cs
    ensures r != [] ==> r[|r| - 1] !in cs
    decreases |s|
  {
    if s != [] && s[|s| - 1] in cs then RStripChars(s[..|s| - 1], cs) else s
  }

  /** Python's `s.strip(cs)`. */
  function StripChars(s: string, cs: set<char>): string {
    RStripChars(LStripChars(s, cs), cs)
  }

  /** Python's `s.strip()`. */
  function Strip(s: string): string {
    StripChars(s, Whitespace)
  }

  /** `lstrip` leaves alone a string whose first character it does not remove. */
  lemma LStripKeeps(s: string, cs: set<char>)
    requires s != [] && s[0] !in cs
    ensures LStripChars(s, cs) == s
  {
  }

  /** `rstrip` leaves alone a string whose last character it does not remove. */
  lemma RStripKeeps(s: string, cs: set<char>)
    requires s != [] && s[|s| - 1] !in cs
    ensures RStripChars(s, cs) == s
  {
  }

  /** What `strip` leaves begins and ends with a character it does not remove. */
  lemma StripEnds(s: string, cs: set<char>)
    ensures var r := StripChars(s, cs);
      r != [] ==> r[0] !in cs && r[|r| - 1] !in cs
  {
    var l := LStripChars(s, cs);
    var r := RStripChars(l, cs);
    if r != [] {
      assert r[0] == l[0];
    }
  }

  /** `strip` empties a string exactly when every character of it would be removed. */
  lemma StripEmptyIff(s: string, cs: set<char>)
    ensures StripChars(s, cs) == [] <==> AllIn(s, cs)
  {
    var l := LStripChars(s, cs);
    assert l != [] ==> l[0] == s[|s| - |l|];
  }

  /** Python's `s.strip()` is empty exactly when `s` is blank. */
  lemma StripBlank(s: string)
    ensures Strip(s) == [] <==> IsBlank(s)
  {
    StripEmptyIff(s, Whitespace);
  }

  /** A string with a character `strip()` keeps is not blank. */
  lemma NotBlankAt(s: string, i: nat)
    requires i < |s| && s[i] !in Whitespace
    ensures !IsBlank(s)
  {
  }

  /** A string that is not blank keeps a non-blank core after `strip()`. */
  lemma StripNotBlank(s: string)
    requires !IsBlank(s)
    ensures Strip(s) != [] && !IsBlank(Strip(s))
  {
    StripBlank(s);
    StripEnds(s, Whitespace);
  }

  lemma {:induction false} LStripPrepend(w: string, s: string, cs: set<char>)
    requires AllIn(w, cs)
    ensures LStripChars(w + s, cs) == LStripChars(s, cs)
    decreases |w|
  {
    if w != [] {
      assert (w + s)[1..] == w[1..] + s;
      LStripPrepend(w[1..], s, cs);
    } else {
      assert w + s == s;
    }
  }

  lemma {:induction false} RStripAppend(s: string, w: string, cs: set<char>)
    requires AllIn(w, cs)
    ensures RStripChars(s + w, cs) == RStripChars(s, cs)
    decreases |w|
  {
    if w != [] {
      assert (s + w)[..|s + w| - 1] == s + w[..|w| - 1];
      RStripAppend(s, w[..|w| - 1], cs);
    } else {
      assert s + w == s;
    }
  }

  lemma {:induction false} LStripAppend(s: string, w: string, cs: set<char>)
    requires AllIn(w, cs)
    ensures LStripChars(s + w, cs) == if AllIn(s, cs) then [] else LStripChars(s, cs) + w
    decreases |s|
  {
    if s == [] {
      assert s + w == w + [];
      LStripPrepend(w, [], cs);
    } else if s[0] in cs {
      assert (s + w)[1..] == s[1..] + w;
      assert LStripChars(s + w, cs) == LStripChars(s[1..] + w, cs);
      LStripAppend(s[1..], w, cs);
      AllInTail(s, cs);
    } else {
      assert (s + w)[0] == s[0];
      assert !AllIn(s, cs);
    }
  }

  lemma AllInTail(s: string, cs: set<char>)
    requires s != [] && s[0] in cs
    ensures AllIn(s, cs) <==> AllIn(s[1..], cs)
  {
    if AllIn(s[1..], cs) {
      forall i | 0 <= i < |s| ensures s[i] in cs {
        if i > 0 { assert s[i] == s[1..][i - 1]; }
      }
    }
  }

  /** Whitespace added around a string does not change what `strip` returns. */
  lemma StripSurrounded(w1: string, s: string, w2: string, cs: set<char>)
    requires AllIn(w1, cs) && AllIn(w2, cs)
    ensures StripChars(w1 + s + w2, cs) == StripChars(s, cs)
  {
    var l := LStripChars(s + w2, cs);
    assert w1 + s + w2 == w1 + (s + w2);
    LStripPrepend(w1, s + w2, cs);
    assert LStripChars(w1 + s + w2, cs) == l;
    LStripAppend(s, w2, cs);
    if AllIn(s, cs) {
      StripEmptyIff(s, cs);
      assert l == [];
    } else {
      assert l == LStripChars(s, cs) + w2;
      RStripAppend(LStripChars(s, cs), w2, cs);
    }
  }

  /** `strip` leaves alone a string whose first and last characters it would not remove. */
  lemma StripClean(s: string, cs: set<char>)
    requires s != [] ==> s[0] !in cs && s[|s| - 1] !in cs
    ensures StripChars(s, cs) == s
  {
  }

  /** `strip()` applied twice removes nothing more. */
  lemma StripTwice(s: string)
    ensures Strip(Strip(s)) == Strip(s)
  {
    StripEnds(s, Whitespace);
    StripClean(Strip(s), Whitespace);
  }

  // ---------------------------------------------------------------- substrings

  /** `sep` occurs in `s` starting at index `i`. */
  predicate OccursAt(s: string, sep: string, i: nat) {
    i + |sep| <= |s| && s[i..i + |sep|] == sep
  }

  /** Python's `sep in s`. */
  predicate Contains(s: string, sep: string) {
    exists i: nat :: i <= |s| && OccursAt(s, sep, i)
  }

  /** No occurrence of `sep` in `s` starts before index `n`. */
  predicate NoneBefore(s: string, sep: string, n: nat) {
    forall i: nat :: i < n ==> !OccursAt(s, sep, i)
  }

  lemma OccursShift(s: string, sep: string, i: nat)
    requires s != []
    ensures OccursAt(s, sep, i + 1) <==> OccursAt(s[1..], sep, i)
  {
    if i + 1 + |sep| <= |s| {
      assert s[i + 1..i + 1 + |sep|] == s[1..][i..i + |sep|];
    }
  }

  lemma OccursInPrefix(a: string, b: string, sep: string, i: nat)
    requires i + |sep| <= |a|
    ensures OccursAt(a + b, sep, i) <==> OccursAt(a, sep, i)
  {
    assert (a + b)[i..i + |sep|] == a[i..i + |sep|];
  }

  lemma OccursInSuffix(a: string, b: string, sep: string, i: nat)
    requires |a| <= i
    ensures OccursAt(a + b, sep, i) <==> OccursAt(b, sep, i - |a|)
  {
    if i + |sep| <= |a + b| {
      assert (a + b)[i..i + |sep|] == b[i - |a|..i - |a| + |sep|];
    }
  }

  /** Gluing on characters that do not appear in `sep` cannot create an occurrence of it. */
  lemma NoOccurrenceGlued(x: string, w: string, sep: string)
    requires !Contains(x, sep)
    requires forall k :: 0 <= k < |w| ==> w[k] !in sep
    ensures !Contains(x + w, sep) && !Contains(w + x, sep)
  {
    assert sep == [] ==> OccursAt(x, sep, 0);
    forall i: nat | i <= |x + w| ensures !OccursAt(x + w, sep, i) {
      if i + |sep| <= |x| {
        OccursInPrefix(x, w, sep, i);
      } else if i + |sep| <= |x + w| {
        var j := if i < |x| then |x| else i;
        assert (x + w)[j] == w[j - |x|] && sep[j - i] in sep;
        assert (x + w)[i..i + |sep|][j - i] == (x + w)[j];
      }
    }
    forall i: nat | i <= |w + x| ensures !OccursAt(w + x, sep, i) {
      if |w| <= i {
        OccursInSuffix(w, x, sep, i);
      } else if i + |sep| <= |w + x| {
        assert (w + x)[i] == w[i] && sep[0] in sep;
        assert (w + x)[i..i + |sep|][0] == (w + x)[i];
      }
    }
  }

  /**
   * When the last character of `sep` appears nowhere else in `sep` and nowhere in `y`, the first
   * occurrence of `sep` in `x + y + sep + ...` after an `x` free of `sep` is the one right after `y`.
   */
  lemma FirstOccurrenceAfter(x: string, y: string, sep: string)
    requires sep != [] && !Contains(x, sep)
    requires sep[|sep| - 1] !in y && sep[|sep| - 1] !in sep[..|sep| - 1]
    ensures NoneBefore(x + y + sep, sep, |x + y|)
  {
    var s := x + y + sep;
    var last := sep[|sep| - 1];
    forall i: nat | i < |x + y| ensures !OccursAt(s, sep, i) {
      if i + |sep| <= |x| {
        assert s == x + (y + sep);
        OccursInPrefix(x, y + sep, sep, i);
      } else {
        var e := i + |sep| - 1;
        assert s[i..i + |sep|][e - i] == s[e];
        if e < |x + y| {
          assert s[e] == y[e - |x|];
        } else {
          assert s[e] == sep[e - |x + y|];
          assert sep[e - |x + y|] == sep[..|sep| - 1][e - |x + y|];
        }
      }
    }
  }

  /**
   * An occurrence of `sep` cannot start inside `b + t` when `b` is free of `sep`, the last
   * character of `sep` appears only at its end, the only such character of `t` is its last one,
   * and `sep` is not the tail of `t`.
   */
  lemma NoOccurrenceBeforeEndOf(b: string, t: string, c: string, sep: string)
    requires sep != [] && !Contains(b, sep) && |sep| <= |t|
    requires t[|t| - 1] == sep[|sep| - 1]
    requires sep[|sep| - 1] !in t[..|t| - 1] && sep[|sep| - 1] !in sep[..|sep| - 1]
    requires t[|t| - |sep|..] != sep
    ensures NoneBefore(b + t + c, sep, |b + t|)
  {
    var s := b + t + c;
    var last := sep[|sep| - 1];
    var m := |b + t| - 1;
    assert s[m] == last;
    forall i: nat | i < |b + t| ensures !OccursAt(s, sep, i) {
      var e := i + |sep| - 1;
      if i + |sep| <= |b| {
        assert s == b + (t + c);
        OccursInPrefix(b, t + c, sep, i);
      } else if e < m {
        assert s[i..i + |sep|][e - i] == s[e];
        assert s[e] == t[e - |b|] == t[..|t| - 1][e - |b|];
      } else if e == m {
        assert s[i..i + |sep|] == t[|t| - |sep|..];
      } else if e < |s| {
        assert s[i..i + |sep|][m - i] == s[m];
        assert sep[m - i] == sep[..|sep| - 1][m - i];
      }
    }
  }

  /** A one-character separator occurs only where that character does. */
  lemma NoCharOccurrence(p: string, c: char)
    requires c !in p
    ensures !Contains(p, [c]) && NoneBefore(p + [c], [c], |p|)
  {
    forall i: nat | i <= |p| ensures !OccursAt(p, [c], i) {
      if i + 1 <= |p| { assert p[i..i + 1][0] == p[i]; }
    }
    forall i: nat | i < |p| ensures !OccursAt(p + [c], [c], i) {
      assert (p + [c])[i..i + 1][0] == p[i];
    }
  }

  // ---------------------------------------------------------------- split and join

  /**
   * When no occurrence of `sep` starts before index `n`, the first piece of the split is a prefix
   * of `s` that reaches at least to `n`.
   */
  lemma {:induction false} SplitHeadPrefix(s: string, sep: string, n: nat)
    requires sep != [] && n <= |s| && NoneBefore(s, sep, n)
    ensures var h := Split(s, sep)[0]; n <= |h| <= |s| && h == s[..|h|]
    decreases |s|
  {
    if |s| < |sep| {
    } else if s[..|sep|] == sep {
      assert OccursAt(s, sep, 0);
    } else {
      var m := if n == 0 then 0 else n - 1;
      forall i: nat | i < m ensures !OccursAt(s[1..], sep, i) {
        OccursShift(s, sep, i);
      }
      SplitHeadPrefix(s[1..], sep, m);
      var t := Split(s[1..], sep)[0];
      assert [s[0]] + t == s[..|t| + 1];
    }
  }

  /** Python's `sep.join(pieces)`. */
  function Join(pieces: seq<string>, sep: string): string
    decreases |pieces|
  {
    if pieces == [] then []
    else if |pieces| == 1 then pieces[0]
    else pieces[0] + sep + Join(pieces[1..], sep)
  }

  /**
   * The pieces a left-to-right split produces: each piece but the last runs up to the first
   * occurrence of `sep` after it starts, and the last piece holds no `sep` at all.
   */
  predicate Leftmost(pieces: seq<string>, sep: string) {
    && pieces != []
    && !Contains(pieces[|pieces| - 1], sep)
    && forall k :: 0 <= k < |pieces| - 1 ==> NoneBefore(pieces[k] + sep, sep, |pieces[k]|)
  }

  lemma JoinEmptyHead(pieces: seq<string>, sep: string)
    requires pieces != []
    ensures Join([[]] + pieces, sep) == sep + Join(pieces, sep)
  {
    assert ([[]] + pieces)[1..] == pieces;
  }

  lemma JoinConsHead(c: char, pieces: seq<string>, sep: string)
    requires pieces != []
    ensures Join([[c] + pieces[0]] + pieces[1..], sep) == [c] + Join(pieces, sep)
  {
    var r := [[c] + pieces[0]] + pieces[1..];
    if |pieces| > 1 {
      assert r[1..] == pieces[1..];
    }
  }

  /**
   * Python's `s.split(sep)` for a non-empty `sep`: cut at each leftmost, non-overlapping occurrence.
   * Nothing is lost or added: the pieces joined by `sep` give `s` back.
   */
  function Split(s: string, sep: string): (pieces: seq<string>)
    requires sep != []
    ensures pieces != []
    ensures Join(pieces, sep) == s
    decreases |s|
  {
    if |s| < |sep| then [s]
    else if s[..|sep|] == sep then
      var rest := Split(s[|sep|..], sep);
      JoinEmptyHead(rest, sep);
      assert s == sep + s[|sep|..];
      [[]] + rest
    else
      var rest := Split(s[1..], sep);
      JoinConsHead(s[0], rest, sep);
      assert s == [s[0]] + s[1..];
      [[s[0]] + rest[0]] + rest[1..]
  }

  /** The pieces of a split are exactly the leftmost decomposition. */
  lemma {:induction false} SplitLeftmost(s: string, sep: string)
    requires sep != []
    ensures Leftmost(Split(s, sep), sep)
    decreases |s|
  {
    if |s| < |sep| {
      forall i: nat ensures !OccursAt(s, sep, i) {}
    } else if s[..|sep|] == sep {
      SplitLeftmost(s[|sep|..], sep);
      LeftmostCons([], Split(s[|sep|..], sep), sep);
    } else {
      var rest := Split(s[1..], sep);
      SplitLeftmost(s[1..], sep);
      var head := [s[0]] + rest[0];
      assert !OccursAt(s, sep, 0);
      if |rest| == 1 {
        assert head == s;
        forall i: nat | i <= |s| ensures !OccursAt(s, sep, i) {
          if i > 0 { OccursShift(s, sep, i - 1); }
        }
      } else {
        assert s[1..] == rest[0] + sep + Join(rest[1..], sep);
        ConsNoneBefore(s, rest[0], Join(rest[1..], sep), sep);
        LeftmostTail(rest, sep);
        LeftmostCons(head, rest[1..], sep);
      }
    }
  }

  lemma LeftmostCons(p: string, rest: seq<string>, sep: string)
    requires Leftmost(rest, sep) && NoneBefore(p + sep, sep, |p|)
    ensures Leftmost([p] + rest, sep)
  {
    var r := [p] + rest;
    forall k | 0 <= k < |r| - 1 ensures NoneBefore(r[k] + sep, sep, |r[k]|) {
      if k > 0 { assert r[k] == rest[k - 1]; }
    }
  }

  lemma LeftmostTail(rest: seq<string>, sep: string)
    requires Leftmost(rest, sep) && |rest| > 1
    ensures Leftmost(rest[1..], sep)
  {
    forall k | 0 <= k < |rest| - 2 ensures NoneBefore(rest[1..][k] + sep, sep, |rest[1..][k]|) {
      assert rest[1..][k] == rest[k + 1];
    }
  }

  /** Putting a character in front of a first piece keeps it first, when `sep` does not start there. */
  lemma ConsNoneBefore(s: string, h: string, j: string, sep: string)
    requires s != [] && s[1..] == h + sep + j && !OccursAt(s, sep, 0)
    requires NoneBefore(h + sep, sep, |h|)
    ensures NoneBefore([s[0]] + h + sep, sep, |h| + 1)
  {
    var head := [s[0]] + h;
    assert s == (head + sep) + j;
    forall i: nat | i < |head| ensures !OccursAt(head + sep, sep, i) {
      if i == 0 {
        OccursInPrefix(head + sep, j, sep, 0);
      } else {
        assert (head + sep)[1..] == h + sep;
        OccursShift(head + sep, sep, i - 1);
      }
    }
  }

  /** A string with no `sep` in it splits into itself alone. */
  lemma {:induction false} SplitNoSep(s: string, sep: string)
    requires sep != [] && !Contains(s, sep)
    ensures Split(s, sep) == [s]
    decreases |s|
  {
    if |s| >= |sep| {
      assert !OccursAt(s, sep, 0);
      forall i: nat ensures !OccursAt(s[1..], sep, i) {
        OccursShift(s, sep, i);
      }
      SplitNoSep(s[1..], sep);
      assert s == [s[0]] + s[1..];
    }
  }

  /** The text before the first occurrence of `sep` is the first piece, and the rest splits on its own. */
  lemma {:induction false} SplitFirst(a: string, sep: string, b: string)
    requires sep != [] && NoneBefore(a + sep, sep, |a|)
    ensures Split(a + sep + b, sep) == [a] + Split(b, sep)
    decreases |a|
  {
    var s := a + sep + b;
    if a == [] {
      assert s == sep + b;
      assert s[..|sep|] == sep && s[|sep|..] == b;
    } else {
      assert !OccursAt(a + sep, sep, 0);
      assert s[..|sep|] == (a + sep)[..|sep|];
      forall i: nat | i < |a| - 1 ensures !OccursAt(a[1..] + sep, sep, i) {
        assert (a + sep)[1..] == a[1..] + sep;
        OccursShift(a + sep, sep, i);
      }
      assert s[1..] == a[1..] + sep + b;
      SplitFirst(a[1..], sep, b);
      assert [a[0]] + a[1..] == a;
    }
  }

  /** Splitting a leftmost decomposition joined back together gives those pieces. */
  lemma {:induction false} SplitJoin(pieces: seq<string>, sep: string)
    requires sep != [] && Leftmost(pieces, sep)
    ensures Split(Join(pieces, sep), sep) == pieces
    decreases |pieces|
  {
    if |pieces| == 1 {
      SplitNoSep(pieces[0], sep);
    } else {
      var rest := pieces[1..];
      assert Leftmost(rest, sep) by {
        assert rest[|rest| - 1] == pieces[|pieces| - 1];
        forall k | 0 <= k < |rest| - 1 ensures NoneBefore(rest[k] + sep, sep, |rest[k]|) {
          assert rest[k] == pieces[k + 1];
        }
      }
      SplitJoin(rest, sep);
      SplitFirst(pieces[0], sep, Join(rest, sep));
      assert pieces == [pieces[0]] + rest;
    }
  }

  /** Python's `len(s.split(sep)) > 1` exactly when `sep in s`. */
  lemma SplitSeveralIff(s: string, sep: string)
    requires sep != []
    ensures |Split(s, sep)| > 1 <==> Contains(s, sep)
  {
    if !Contains(s, sep) {
      SplitNoSep(s, sep);
    } else if |Split(s, sep)| == 1 {
      SplitLeftmost(s, sep);
    }
  }

  // ---------------------------------------------------------------- rendering

  /** `n` copies of `c`, as Python's `c * n`. */
  function Repeat(c: char, n: nat): (r: string)
    ensures |r| == n && forall i :: 0 <= i < n ==> r[i] == c
  {
    seq(n, _ => c)
  }

  /** Python's `str(n)` for a natural number: its decimal digits, most significant first. */
  function NatToString(n: nat): (s: string)
    ensures s != [] && forall i :: 0 <= i < |s| ==> '0' <= s[i] <= '9'
    ensures |s| == 1 <==> n < 10
    decreases n
  {
    if n < 10 then ["0123456789"[n]] else NatToString(n / 10) + ["0123456789"[n % 10]]
  }

  /** Python's `str(n)` for an integer. */
  function IntToString(n: int): (s: string)
    ensures s != [] && (s[0] == '-' <==> n < 0)
  {
    if n < 0 then "-" + NatToString(-n) else NatToString(n)
  }

  /** The number a string of decimal digits stands for, most significant digit first. */
  function DigitsValue(s: string): nat
    requires forall i :: 0 <= i < |s| ==> '0' <= s[i] <= '9'
    decreases |s|
  {
    if s == [] then 0 else 10 * DigitsValue(s[..|s| - 1]) + (s[|s| - 1] as int - '0' as int)
  }

  /** The digits `NatToString` writes stand for `n`, with no leading zero except for `n == 0`. */
  lemma {:induction false} NatToStringValue(n: nat)
    ensures DigitsValue(NatToString(n)) == n
    ensures NatToString(n)[0] == '0' ==> n == 0
    decreases n
  {
    var s := NatToString(n);
    if n >= 10 {
      NatToStringValue(n / 10);
      assert s[..|s| - 1] == NatToString(n / 10);
      assert s[|s| - 1] == "0123456789"[n % 10];
      assert s[0] == NatToString(n / 10)[0];
    }
  }

  /** `IntToString` writes `-` and the digits of `-n` for a negative `n`, the digits of `n` otherwise. */
  lemma IntToStringValue(n: int)
    ensures n < 0 ==> IntToString(n)[1..] == NatToString(-n) && DigitsValue(IntToString(n)[1..]) == -n
    ensures n >= 0 ==> DigitsValue(IntToString(n)) == n
  {
    if n < 0 {
      NatToStringValue(-n);
      assert IntToString(n)[1..] == NatToString(-n);
    } else {
      NatToStringValue(n);
    }
  }
}

=== FILE: round_trip.dfy ===
/**
 * Writing the full-transcript file and reading the transcript back out of it: the text the
 * PDF generator finds after a finished run is the transcript the run returned, stripped.
 */
module RoundTrip {
  import opened Wrappers
  import opened PyString
  import opened TranscriptLog
  import opened SpeechText
  import opened PdfText

  /** The final banner holds no colon, so no marker can end inside it. */
  lemma BannerHasNoColon()
    ensures ':' !in FinalBanner()
  {
    var rule := Repeat('=', 80);
    assert ':' !in "FINAL TRANSCRIPTION COMPLETE\n";
    assert ':' !in rule;
    assert FinalBanner() == "FINAL TRANSCRIPTION COMPLETE\n" + rule + "\n";
  }

  /** Line breaks are whitespace and occur in no marker. */
  lemma LineBreakFacts()
    ensures '\n' in Whitespace && '\n' !in FinalMarker
  {
  }

  /**
   * The final block appended after text free of the final marker gives back the stripped
   * transcript, provided the transcript itself does not contain the marker.
   */
  lemma ExtractFromFinalBlock(pre: string, transcript: string)
    requires !Contains(pre, FinalMarker) && !Contains(transcript, FinalMarker)
    ensures ExtractTranscript(pre + RenderBlock(FinalBlock(Some(transcript)))) == Strip(transcript)
  {
    var banner := FinalBanner();
    var rest := "\n" + transcript + "\n\n";
    assert pre + RenderBlock(FinalBlock(Some(transcript))) == (pre + banner) + FinalMarker + rest;
    BannerHasNoColon();
    MarkersEndInColon();
    FirstOccurrenceAfter(pre, banner, FinalMarker);
    SplitFirst(pre + banner, FinalMarker, rest);
    FinalSection(transcript);
  }

  /** What follows the final marker has no marker in it and strips to the transcript. */
  lemma FinalSection(transcript: string)
    requires !Contains(transcript, FinalMarker)
    ensures var rest := "\n" + transcript + "\n\n";
      Split(rest, FinalMarker) == [rest] && Strip(rest) == Strip(transcript)
  {
    LineBreakFacts();
    NoOccurrenceGlued(transcript, "\n\n", FinalMarker);
    NoOccurrenceGlued(transcript + "\n\n", "\n", FinalMarker);
    assert "\n" + transcript + "\n\n" == "\n" + (transcript + "\n\n");
    SplitNoSep("\n" + transcript + "\n\n", FinalMarker);
    StripSurrounded("\n", transcript, "\n\n", Whitespace);
  }

  /**
   * After a run that returned transcript `T`, the transcript PDF reads `strip(T)` back from the
   * file the run wrote, when neither `T` nor anything written before the final block contains
   * the final marker.
   */
  lemma FinishedLogRoundTrip(polls: seq<Poll>, quota: Option<int>, baseFilename: string, generated: string,
                             transcript: string)
    requires var t := Run(polls, 0, quota, TranscriptPath(baseFilename));
      t.outcome == Success((transcript, TranscriptPath(baseFilename)))
    requires var t := Run(polls, 0, quota, TranscriptPath(baseFilename));
      !Contains(RenderFile([FileHeader(baseFilename, generated)] + t.blocks[..|t.blocks| - 1]), FinalMarker)
    requires !Contains(transcript, FinalMarker)
    ensures var t := Run(polls, 0, quota, TranscriptPath(baseFilename));
      ExtractTranscript(RenderFile([FileHeader(baseFilename, generated)] + t.blocks)) == Strip(transcript)
  {
    var path := TranscriptPath(baseFilename);
    var t := Run(polls, 0, quota, path);
    FinishedRun(polls, 0, quota, path, transcript, path);
    var before := [FileHeader(baseFilename, generated)] + t.blocks[..|t.blocks| - 1];
    SplitOffLast(FileHeader(baseFilename, generated), t.blocks, FinalBlock(Some(transcript)));
    LogEndsWithFinal(before, transcript);
  }

  /** A file whose last append is the final block gives back that block's transcript, stripped. */
  lemma LogEndsWithFinal(before: seq<Block>, transcript: string)
    requires !Contains(RenderFile(before), FinalMarker) && !Contains(transcript, FinalMarker)
    ensures ExtractTranscript(RenderFile(before + [FinalBlock(Some(transcript))])) == Strip(transcript)
  {
    RenderFileSnoc(before, FinalBlock(Some(transcript)));
    ExtractFromFinalBlock(RenderFile(before), transcript);
  }

  /** The file's blocks are those before the last one, then the last one. */
  lemma SplitOffLast(header: Block, blocks: seq<Block>, last: Block)
    requires blocks != [] && blocks[|blocks| - 1] == last
    ensures [header] + blocks == ([header] + blocks[..|blocks| - 1]) + [last]
  {
  }

  /** Appending a block appends its text. */
  lemma RenderFileSnoc(blocks: seq<Block>, b: Block)
    ensures RenderFile(blocks + [b]) == RenderFile(blocks) + RenderBlock(b)
  {
    assert (blocks + [b])[..|blocks|] == blocks;
  }
}

=== FILE: speech_text.dfy ===
/**
 * The speech-to-text client's poll loop (`SpeechTextClient._get_complete_transcription_results`):
 * it queries the job's status until the service reports `finished` or `failed`, appends one block
 * per status-bearing reply to the full-transcript file, keeps the last reported quota on the
 * client, and returns the transcript together with the file's path.
 *
 * The service's replies are a finite sequence of `Poll`s; a run that uses them all up without a
 * terminal reply ends with `RepliesExhausted` (the program itself would keep polling).
 */
module SpeechText {
  import opened Wrappers
  import opened PyString
  import opened TranscriptLog

  /**
   * A reply to one status query; `remainingSeconds` is its top-level "remaining seconds" key.
   * `None` stands for a missing key: every field present has its expected type, so JSON `null`
   * and values of another type are not represented.
   */
  datatype Response = Response(status: Option<string>, results: Option<Results>, remainingSeconds: Option<int>)

  /** One status query: the reply and the wall-clock reading stamped on its block. */
  datatype Poll = Poll(reply: Response, clock: string)

  /** The exceptions the loop raises. */
  datatype PollError =
    | TranscriptionFailed(reply: Response)   // "Transcription failed: <reply>"
    | NoTranscriptFound                      // "No transcript found in final results"
    | UnexpectedResponseFormat               // a reply without a status
    | RepliesExhausted                       // no reply left to read (the program would poll on)

  /** What a run leaves behind: the blocks it appended, the client's quota, its poll count and its result. */
  datatype Trace = Trace(blocks: seq<Block>, quota: Option<int>, pollCount: nat, outcome: Result<(string, string), PollError>)

  /** Where the full transcript of `baseFilename` is written. */
  function TranscriptPath(baseFilename: string): string {
    "meeting_outputs/" + baseFilename + "_full_transcript.txt"
  }

  /** The quota after `reply`: only a reply with both `results` and "remaining seconds" overwrites it. */
  function QuotaAfter(quota: Option<int>, reply: Response): Option<int> {
    if reply.results.Some? && reply.remainingSeconds.Some? then reply.remainingSeconds else quota
  }

  /** The block appended for the `n`-th poll. */
  function BlockFor(p: Poll, n: nat): Block {
    PollBlock(n, p.reply.status.GetOr([]), p.clock, p.reply.results,
      if p.reply.results.Some? then p.reply.remainingSeconds else None)
  }

  /** The block appended after a `finished` reply; a missing transcript is written as empty. */
  function FinalFor(reply: Response): Block {
    FinalBlock(if reply.results.Some? then Some(reply.results.value.transcript.GetOr([])) else None)
  }

  /** The result of a run that ends on a `finished` reply. */
  function FinishedOutcome(reply: Response, path: string): Result<(string, string), PollError> {
    if reply.results.Some? && reply.results.value.transcript.Some?
    then Success((reply.results.value.transcript.value, path))
    else Failure(NoTranscriptFound)
  }

  /**
   * What one turn of the loop does with a reply, as the `n`-th poll: the blocks it appends, the
   * quota it leaves, and the result when the loop ends there (`None` when it polls again).
   */
  datatype Turn = Turn(blocks: seq<Block>, quota: Option<int>, stop: Option<Result<(string, string), PollError>>)

  function Step(p: Poll, n: nat, quota: Option<int>, path: string): (s: Turn)
    ensures s.stop.None? <==> !EndsLoop(p.reply)
    ensures |s.blocks| == (if p.reply.status.None? then 0 else if p.reply.status.value == "finished" then 2 else 1)
  {
    var reply := p.reply;
    if reply.status.None? then Turn([], quota, Some(Failure(UnexpectedResponseFormat)))
    else
      var block := BlockFor(p, n);
      var q := QuotaAfter(quota, reply);
      if reply.status.value == "failed" then
        Turn([block], q, Some(Failure(TranscriptionFailed(reply))))
      else if reply.status.value == "finished" then
        Turn([block, FinalFor(reply)], if reply.results.Some? then QuotaAfter(q, reply) else q,
             Some(FinishedOutcome(reply, path)))
      else Turn([block], q, None)
  }

  /**
   * The loop, as a function of the replies still to come, the polls made so far and the quota
   * held so far.
   */
  function Run(polls: seq<Poll>, count: nat, quota: Option<int>, path: string): (t: Trace)
    ensures count <= t.pollCount <= count + |polls|
    decreases |polls|
  {
    if polls == [] then Trace([], quota, count, Failure(RepliesExhausted))
    else
      var s := Step(polls[0], count + 1, quota, path);
      if s.stop.Some? then Trace(s.blocks, s.quota, count + 1, s.stop.value)
      else
        var rest := Run(polls[1..], count + 1, s.quota, path);
        Trace(s.blocks + rest.blocks, rest.quota, rest.pollCount, rest.outcome)
  }

  // ---------------------------------------------------------------- reference definitions

  /** A reply after which the loop does not poll again. */
  predicate EndsLoop(reply: Response) {
    reply.status.None? || reply.status.value == "failed" || reply.status.value == "finished"
  }

  /** The index of the first reply that ends the loop, or the number of replies if none does. */
  function StopIndex(polls: seq<Poll>): (k: nat)
    ensures k <= |polls|
    ensures forall j :: 0 <= j < k ==> !EndsLoop(polls[j].reply)
    ensures k < |polls| ==> EndsLoop(polls[k].reply)
    decreases |polls|
  {
    if polls == [] then 0
    else if EndsLoop(polls[0].reply) then 0
    else 1 + StopIndex(polls[1..])
  }

  /** Blocks numbered `count + 1`, `count + 2`, ... for `polls`, in arrival order. */
  function PollBlocks(polls: seq<Poll>, count: nat): (bs: seq<Block>)
    ensures |bs| == |polls|
    ensures forall j :: 0 <= j < |polls| ==> bs[j] == BlockFor(polls[j], count + j + 1)
    decreases |polls|
  {
    if polls == [] then [] else [BlockFor(polls[0], count + 1)] + PollBlocks(polls[1..], count + 1)
  }

  /** The blocks the loop appends for the reply it stops at, numbered `n`. */
  function StopBlocks(p: Poll, n: nat): seq<Block> {
    if p.reply.status.None? then []
    else if p.reply.status.value == "finished" then [BlockFor(p, n), FinalFor(p.reply)]
    else [BlockFor(p, n)]
  }

  /** The result of a run that stops at `reply`. */
  function StopOutcome(reply: Response, path: string): Result<(string, string), PollError> {
    if reply.status.None? then Failure(UnexpectedResponseFormat)
    else if reply.status.value == "failed" then Failure(TranscriptionFailed(reply))
    else FinishedOutcome(reply, path)
  }

  /** The quota reported by the latest reply that has a status, `results` and "remaining seconds". */
  function LastReported(polls: seq<Poll>, initial: Option<int>): Option<int>
    decreases |polls|
  {
    if polls == [] then initial
    else
      var r := polls[|polls| - 1].reply;
      if r.status.Some? && r.results.Some? && r.remainingSeconds.Some? then r.remainingSeconds
      else LastReported(polls[..|polls| - 1], initial)
  }

  // ---------------------------------------------------------------- properties of the loop

  /**
   * A run that stops at reply `k` (or uses them all up, `k == |polls|`): it consumes the replies up
   * to and including that one, appends one block per status-bearing reply, numbered from
   * `count + 1` in arrival order, plus the final block after a `finished` reply, and ends as that
   * reply dictates.
   */
  predicate ShapeAt(t: Trace, polls: seq<Poll>, count: nat, path: string, k: nat) {
    && k <= |polls| && (k < |polls| ==> EndsLoop(polls[k].reply))
    && t.pollCount == count + (if k < |polls| then k + 1 else k)
    && t.blocks == PollBlocks(polls[..k], count)
                   + (if k < |polls| then StopBlocks(polls[k], count + k + 1) else [])
    && t.outcome == (if k < |polls| then StopOutcome(polls[k].reply, path) else Failure(RepliesExhausted))
  }

  /** The shape of a run: it stops at the first reply that ends the loop. */
  predicate Shape(t: Trace, polls: seq<Poll>, count: nat, path: string) {
    ShapeAt(t, polls, count, path, StopIndex(polls))
  }

  lemma {:induction false} RunShape(polls: seq<Poll>, count: nat, quota: Option<int>, path: string)
    ensures Shape(Run(polls, count, quota, path), polls, count, path)
    decreases |polls|
  {
    if polls == [] {
    } else if EndsLoop(polls[0].reply) {
      assert polls[..0] == [];
    } else {
      var q := QuotaAfter(quota, polls[0].reply);
      RunShape(polls[1..], count + 1, q, path);
      RunCons(polls, count, quota, path);
      ShapeCons(polls, count, path, Run(polls, count, quota, path), Run(polls[1..], count + 1, q, path));
    }
  }

  lemma ShapeCons(polls: seq<Poll>, count: nat, path: string, t: Trace, rest: Trace)
    requires polls != [] && !EndsLoop(polls[0].reply)
    requires t == Trace([BlockFor(polls[0], count + 1)] + rest.blocks, rest.quota, rest.pollCount, rest.outcome)
    requires Shape(rest, polls[1..], count + 1, path)
    ensures Shape(t, polls, count, path)
  {
    assert StopIndex(polls[1..]) == StopIndex(polls) - 1;
    ShapeConsAt(polls, count, path, t, rest, StopIndex(polls));
  }

  lemma ShapeConsAt(polls: seq<Poll>, count: nat, path: string, t: Trace, rest: Trace, k: nat)
    requires 1 <= k && polls != [] && !EndsLoop(polls[0].reply)
    requires t == Trace([BlockFor(polls[0], count + 1)] + rest.blocks, rest.quota, rest.pollCount, rest.outcome)
    requires ShapeAt(rest, polls[1..], count + 1, path, k - 1)
    ensures ShapeAt(t, polls, count, path, k)
  {
    if k < |polls| {
      assert polls[1..][k - 1] == polls[k];
    }
    PollBlocksStep(polls, count, k, if k < |polls| then StopBlocks(polls[k], count + k + 1) else []);
  }

  /** A reply that does not end the loop contributes its block and hands on to the rest. */
  lemma RunCons(polls: seq<Poll>, count: nat, quota: Option<int>, path: string)
    requires polls != [] && !EndsLoop(polls[0].reply)
    ensures var rest := Run(polls[1..], count + 1, QuotaAfter(quota, polls[0].reply), path);
      Run(polls, count, quota, path) == Trace([BlockFor(polls[0], count + 1)] + rest.blocks, rest.quota, rest.pollCount, rest.outcome)
  {
  }

  lemma PollBlocksStep(polls: seq<Poll>, count: nat, k: nat, tail: seq<Block>)
    requires 1 <= k <= |polls|
    ensures [BlockFor(polls[0], count + 1)] + (PollBlocks(polls[1..][..k - 1], count + 1) + tail)
         == PollBlocks(polls[..k], count) + tail
  {
    assert polls[..k][1..] == polls[1..][..k - 1];
  }

  /** Every poll block is the block of the reply at its own position, numbered from `count + 1`. */
  lemma {:induction false} PollBlocksNumbered(polls: seq<Poll>, count: nat, quota: Option<int>, path: string)
    ensures var t := Run(polls, count, quota, path);
      forall j :: 0 <= j < |t.blocks| && t.blocks[j].PollBlock? ==>
        && j < |polls| && polls[j].reply.status.Some?
        && t.blocks[j] == BlockFor(polls[j], count + j + 1)
  {
    RunShape(polls, count, quota, path);
    NumberedAt(Run(polls, count, quota, path), polls, count, path, StopIndex(polls));
  }

  lemma {:induction false} NumberedAt(t: Trace, polls: seq<Poll>, count: nat, path: string, k: nat)
    requires ShapeAt(t, polls, count, path, k)
    requires forall j :: 0 <= j < k ==> !EndsLoop(polls[j].reply)
    ensures forall j :: 0 <= j < |t.blocks| && t.blocks[j].PollBlock? ==>
        && j < |polls| && polls[j].reply.status.Some?
        && t.blocks[j] == BlockFor(polls[j], count + j + 1)
  {
    forall j | 0 <= j < |t.blocks| && t.blocks[j].PollBlock?
      ensures j < |polls| && polls[j].reply.status.Some? && t.blocks[j] == BlockFor(polls[j], count + j + 1)
    {
      if j < k {
        assert polls[..k][j] == polls[j];
      }
    }
  }

  /*
   * Each outcome lemma below is proved at an explicit stop index `k` (the `...At` lemmas) and
   * then instantiated with `StopIndex(polls)`.
   */

  /**
   * On a `failed` reply that reply's block is the last thing written: one block per reply
   * consumed, none of them a final block.
   */
  lemma {:induction false} FailedRun(polls: seq<Poll>, count: nat, quota: Option<int>, path: string)
    ensures var t := Run(polls, count, quota, path);
      t.outcome.Failure? && t.outcome.error.TranscriptionFailed? ==>
        && |t.blocks| == t.pollCount - count > 0
        && (forall b :: b in t.blocks ==> b.PollBlock?)
        && t.blocks[|t.blocks| - 1].status == "failed"
        && t.outcome.error.reply == polls[|t.blocks| - 1].reply
  {
    RunShape(polls, count, quota, path);
    FailedAt(Run(polls, count, quota, path), polls, count, path, StopIndex(polls));
  }

  lemma {:induction false} FailedAt(t: Trace, polls: seq<Poll>, count: nat, path: string, k: nat)
    requires ShapeAt(t, polls, count, path, k)
    ensures t.outcome.Failure? && t.outcome.error.TranscriptionFailed? ==>
        && |t.blocks| == t.pollCount - count > 0
        && (forall b :: b in t.blocks ==> b.PollBlock?)
        && t.blocks[|t.blocks| - 1].status == "failed"
        && t.outcome.error.reply == polls[|t.blocks| - 1].reply
  {
    if t.outcome.Failure? && t.outcome.error.TranscriptionFailed? {
      var r := polls[k].reply;
      assert r.status == Some("failed");
      assert t.blocks == PollBlocks(polls[..k], count) + [BlockFor(polls[k], count + k + 1)];
    }
  }

  /**
   * A reply without a status ends the run with "Unexpected response format": it is counted as a
   * poll but gets no block, and nothing else is written.
   */
  lemma {:induction false} UnexpectedRun(polls: seq<Poll>, count: nat, quota: Option<int>, path: string)
    ensures var t := Run(polls, count, quota, path);
      var k := StopIndex(polls);
      && (t.outcome == Failure(UnexpectedResponseFormat) <==> k < |polls| && polls[k].reply.status.None?)
      && (t.outcome == Failure(UnexpectedResponseFormat) ==>
            |t.blocks| == t.pollCount - count - 1 && forall b :: b in t.blocks ==> b.PollBlock?)
  {
    RunShape(polls, count, quota, path);
    UnexpectedAt(Run(polls, count, quota, path), polls, count, path, StopIndex(polls));
  }

  lemma {:induction false} UnexpectedAt(t: Trace, polls: seq<Poll>, count: nat, path: string, k: nat)
    requires ShapeAt(t, polls, count, path, k)
    ensures && (t.outcome == Failure(UnexpectedResponseFormat) <==> k < |polls| && polls[k].reply.status.None?)
      && (t.outcome == Failure(UnexpectedResponseFormat) ==>
            |t.blocks| == t.pollCount - count - 1 && forall b :: b in t.blocks ==> b.PollBlock?)
  {
    if k < |polls| && polls[k].reply.status.None? {
      assert t.blocks == PollBlocks(polls[..k], count) + [];
    }
  }

  /**
   * A run returns `(T, path)` exactly when it stops at a `finished` reply whose results hold
   * transcript `T`; the last block written is then the final block holding `T`.
   */
  lemma {:induction false} FinishedRun(polls: seq<Poll>, count: nat, quota: Option<int>, path: string, transcript: string, p: string)
    ensures var t := Run(polls, count, quota, path);
      var k := StopIndex(polls);
      && (t.outcome == Success((transcript, p)) <==>
            && k < |polls| && p == path
            && polls[k].reply.status == Some("finished")
            && polls[k].reply.results.Some?
            && polls[k].reply.results.value.transcript == Some(transcript))
      && (t.outcome == Success((transcript, p)) ==>
            && |t.blocks| == t.pollCount - count + 1
            && t.blocks[|t.blocks| - 1] == FinalBlock(Some(transcript))
            && forall j :: 0 <= j < |t.blocks| - 1 ==> t.blocks[j].PollBlock?)
  {
    RunShape(polls, count, quota, path);
    FinishedAt(Run(polls, count, quota, path), polls, count, path, transcript, p, StopIndex(polls));
  }

  lemma {:induction false} FinishedAt(t: Trace, polls: seq<Poll>, count: nat, path: string, transcript: string, p: string, k: nat)
    requires ShapeAt(t, polls, count, path, k)
    ensures && (t.outcome == Success((transcript, p)) <==>
            && k < |polls| && p == path
            && polls[k].reply.status == Some("finished")
            && polls[k].reply.results.Some?
            && polls[k].reply.results.value.transcript == Some(transcript))
      && (t.outcome == Success((transcript, p)) ==>
            && |t.blocks| == t.pollCount - count + 1
            && t.blocks[|t.blocks| - 1] == FinalBlock(Some(transcript))
            && forall j :: 0 <= j < |t.blocks| - 1 ==> t.blocks[j].PollBlock?)
  {
    if k < |polls| {
      var r := polls[k].reply;
      var pre := PollBlocks(polls[..k], count);
      if r.status.Some? && r.status.value == "finished" {
        assert t.blocks == pre + [BlockFor(polls[k], count + k + 1), FinalFor(r)];
        assert t.outcome == FinishedOutcome(r, path);
      } else {
        assert t.outcome.Failure?;
      }
    }
  }

  /**
   * A `finished` reply without a transcript raises "No transcript found in final results"; if it
   * had `results`, an empty final transcript was written first.
   */
  lemma {:induction false} NoTranscriptRun(polls: seq<Poll>, count: nat, quota: Option<int>, path: string)
    ensures var t := Run(polls, count, quota, path);
      var k := StopIndex(polls);
      t.outcome == Failure(NoTranscriptFound) ==>
        && k < |polls| && polls[k].reply.status == Some("finished")
        && !(polls[k].reply.results.Some? && polls[k].reply.results.value.transcript.Some?)
        && t.blocks[|t.blocks| - 1]
           == FinalBlock(if polls[k].reply.results.Some? then Some([]) else None)
  {
    RunShape(polls, count, quota, path);
    NoTranscriptAt(Run(polls, count, quota, path), polls, count, path, StopIndex(polls));
  }

  lemma {:induction false} NoTranscriptAt(t: Trace, polls: seq<Poll>, count: nat, path: string, k: nat)
    requires ShapeAt(t, polls, count, path, k)
    ensures t.outcome == Failure(NoTranscriptFound) ==>
        && k < |polls| && polls[k].reply.status == Some("finished")
        && !(polls[k].reply.results.Some? && polls[k].reply.results.value.transcript.Some?)
        && t.blocks[|t.blocks| - 1]
           == FinalBlock(if polls[k].reply.results.Some? then Some([]) else None)
  {
    if t.outcome == Failure(NoTranscriptFound) {
      var r := polls[k].reply;
      assert r.status == Some("finished");
      assert t.blocks == PollBlocks(polls[..k], count) + [BlockFor(polls[k], count + k + 1), FinalFor(r)];
    }
  }

  lemma {:induction false} LastReportedCons(p: Poll, rest: seq<Poll>, initial: Option<int>)
    ensures LastReported([p] + rest, initial)
         == LastReported(rest, if p.reply.status.Some? then QuotaAfter(initial, p.reply) else initial)
    decreases |rest|
  {
    var all := [p] + rest;
    if rest == [] {
      assert all[..0] == [];
    } else {
      assert all[..|all| - 1] == [p] + rest[..|rest| - 1];
      assert all[|all| - 1] == rest[|rest| - 1];
      LastReportedCons(p, rest[..|rest| - 1], initial);
    }
  }

  /**
   * Last write wins: after a run the quota is the one reported by the latest consumed reply that
   * had a status, `results` and "remaining seconds", or the quota held before if there was none.
   */
  lemma {:induction false} RunQuota(polls: seq<Poll>, count: nat, quota: Option<int>, path: string)
    ensures var t := Run(polls, count, quota, path);
      t.quota == LastReported(polls[..t.pollCount - count], quota)
    decreases |polls|
  {
    if polls != [] {
      var p := polls[0];
      var t := Run(polls, count, quota, path);
      if p.reply.status.None? || p.reply.status.value == "failed" || p.reply.status.value == "finished" {
        assert polls[..t.pollCount - count] == [p] + [];
        LastReportedCons(p, [], quota);
      } else {
        var q := QuotaAfter(quota, p.reply);
        var rest := Run(polls[1..], count + 1, q, path);
        RunQuota(polls[1..], count + 1, q, path);
        var m := rest.pollCount - (count + 1);
        assert polls[..t.pollCount - count] == [p] + polls[1..][..m];
        LastReportedCons(p, polls[1..][..m], quota);
      }
    }
  }

  /** One turn of the loop on the reply at index `i`. */
  lemma RunAt(polls: seq<Poll>, i: nat, count: nat, quota: Option<int>, path: string)
    requires i < |polls|
    ensures var t := Run(polls[i..], count, quota, path);
      var s := Step(polls[i], count + 1, quota, path);
      if s.stop.Some? then t == Trace(s.blocks, s.quota, count + 1, s.stop.value)
      else
        var rest := Run(polls[i + 1..], count + 1, s.quota, path);
        t == Trace(s.blocks + rest.blocks, rest.quota, rest.pollCount, rest.outcome)
  {
    assert polls[i..][0] == polls[i] && polls[i..][1..] == polls[i + 1..];
  }

  // ---------------------------------------------------------------- the client

  /** A text file of the output directory, as the blocks written to it since it was last created. */
  class TextFile {
    const path: string
    var blocks: seq<Block>

    constructor (path: string)
      ensures this.path == path && blocks == []
    {
      this.path := path;
      blocks := [];
    }

    /** Opens the file for writing, which empties it, and writes `block`. */
    method Create(block: Block)
      modifies this
      ensures blocks == [block]
    {
      blocks := [block];
    }

    /** Opens the file for appending and writes `block` at its end. */
    method Append(block: Block)
      modifies this
      ensures blocks == old(blocks) + [block]
    {
      blocks := blocks + [block];
    }
  }

  class SpeechTextClient {
    const apiKey: string
    /** The account's remaining quota as last reported by the service; `None` until reported. */
    var remainingSeconds: Option<int>

    constructor (apiKey: string)
      ensures this.apiKey == apiKey && remainingSeconds == None
    {
      this.apiKey := apiKey;
      remainingSeconds := None;
    }

    /**
     * Appends the block of the `n`-th poll to `file`, taking the reply's quota when it has both
     * `results` and "remaining seconds".
     */
    method LogPoll(p: Poll, n: nat, file: TextFile)
      requires p.reply.status.Some?
      modifies this, file
      ensures file.blocks == old(file.blocks) + [BlockFor(p, n)]
      ensures remainingSeconds == QuotaAfter(old(remainingSeconds), p.reply)
    {
      var results := p.reply;
      if results.results.Some? && results.remainingSeconds.Some? {
        remainingSeconds := results.remainingSeconds;
      }
      file.Append(PollBlock(n, results.status.value, p.clock, results.results,
                            if results.results.Some? then results.remainingSeconds else None));
    }

    /**
     * After a `finished` reply: appends the final block, takes the quota once more, and returns
     * the transcript and the file's path, or raises when the reply holds no transcript.
     */
    method LogFinal(reply: Response, file: TextFile) returns (r: Result<(string, string), PollError>)
      modifies this, file
      ensures file.blocks == old(file.blocks) + [FinalFor(reply)]
      ensures remainingSeconds == QuotaAfter(old(remainingSeconds), reply)
      ensures r == FinishedOutcome(reply, file.path)
    {
      file.Append(FinalBlock(if reply.results.Some? then Some(reply.results.value.transcript.GetOr([])) else None));
      if reply.results.Some? && reply.remainingSeconds.Some? {
        remainingSeconds := reply.remainingSeconds;
      }
      if reply.results.Some? && reply.results.value.transcript.Some? {
        r := Success((reply.results.value.transcript.value, file.path));
      } else {
        r := Failure(NoTranscriptFound);
      }
    }

    /**
     * One turn of the loop: handles the reply `p` to the `n`-th status query, appending to
     * `file`, and returns the result when the loop ends there.
     */
    method PollOnce(p: Poll, n: nat, file: TextFile) returns (stop: Option<Result<(string, string), PollError>>)
      modifies this, file
      ensures var s := Step(p, n, old(remainingSeconds), file.path);
        && file.blocks == old(file.blocks) + s.blocks
        && remainingSeconds == s.quota
        && stop == s.stop
    {
      var results := p.reply;
      if results.status.None? {
        assert file.blocks + [] == file.blocks;
        return Some(Failure(UnexpectedResponseFormat));
      }
      var status := results.status.value;
      LogPoll(p, n, file);
      if status == "failed" {
        return Some(Failure(TranscriptionFailed(results)));
      }
      if status == "finished" {
        var r := LogFinal(results, file);
        assert old(file.blocks) + [BlockFor(p, n)] + [FinalFor(results)]
            == old(file.blocks) + [BlockFor(p, n), FinalFor(results)];
        return Some(r);
      }
      stop := None;
    }

    /**
     * Polls until the job ends, writing the full transcript of `baseFilename` into `file` (the
     * file at its transcript path; `generated` is the creation time printed in its header), and
     * returns the transcript and the file's path or the error raised.
     */
    method GetCompleteTranscriptionResults(polls: seq<Poll>, baseFilename: string, generated: string,
                                           file: TextFile)
      returns (r: Result<(string, string), PollError>)
      requires file.path == TranscriptPath(baseFilename)
      modifies this, file
      ensures var t := Run(polls, 0, old(remainingSeconds), file.path);
        && r == t.outcome
        && remainingSeconds == t.quota
        && file.blocks == [FileHeader(baseFilename, generated)] + t.blocks
    {
      ghost var whole := Run(polls, 0, remainingSeconds, file.path);
      ghost var tail := whole;
      var header := FileHeader(baseFilename, generated);
      file.Create(header);
      var pollCount := 0;
      while pollCount < |polls|
        invariant pollCount <= |polls|
        invariant tail == Run(polls[pollCount..], pollCount, remainingSeconds, file.path)
        invariant [header] + whole.blocks == file.blocks + tail.blocks
        invariant whole.quota == tail.quota && whole.outcome == tail.outcome
      {
        RunAt(polls, pollCount, pollCount, remainingSeconds, file.path);
        ghost var s := Step(polls[pollCount], pollCount + 1, remainingSeconds, file.path);
        ghost var before := file.blocks;
        var reply := polls[pollCount];
        pollCount := pollCount + 1;
        var stop := PollOnce(reply, pollCount, file);
        if stop.Some? {
          assert tail.blocks == s.blocks;
          assert file.blocks + [] == file.blocks;
          return stop.value;
        }
        tail := Run(polls[pollCount..], pollCount, remainingSeconds, file.path);
        assert before + (s.blocks + tail.blocks) == file.blocks + tail.blocks;
      }
      assert polls[pollCount..] == [];
      assert file.blocks + [] == file.blocks;
      r := Failure(RepliesExhausted);
    }
  }
}

=== FILE: transcript_log.dfy ===
/**
 * The full-transcript text file that the speech-to-text client writes while it polls
 * (`meeting_outputs/<name>_full_transcript.txt`) and that the transcript PDF is later built from.
 * The file is kept as the sequence of blocks that were appended to it; `RenderFile` gives the
 * exact text those appends produce.
 */
module TranscriptLog {
  import opened Wrappers
  import opened PyString

  /** Literal section markers of the file; the PDF side finds the transcript by them. */
  const FinalMarker: string := "FINAL COMPLETE TRANSCRIPT:"
  const ContentMarker: string := "TRANSCRIPT CONTENT:"
  const TimestampsMarker: string := "WORD-LEVEL TIMESTAMPS:"

  /**
   * The `results` object of a reply from the service. Word offsets and speaker records are kept
   * as the text each contributes to the file (a formatted offset line, a JSON dump of a record).
   */
  datatype Results = Results(
    transcript: Option<string>,
    wordTimeOffsets: Option<seq<string>>,
    speakers: Option<seq<string>>,
    summary: Option<string>)

  /** One append to the file. */
  datatype Block =
      /** Written when the file is created, before the first poll. */
    | FileHeader(baseFilename: string, generated: string)
      /** Written for every reply that carries a status; `remaining` is the quota line, if any. */
    | PollBlock(n: nat, status: string, clock: string, results: Option<Results>, remaining: Option<int>)
      /** Written after a `finished` reply; `transcript` is absent when that reply had no `results`. */
    | FinalBlock(transcript: Option<string>)

  /** Text written for each element of a list section, one line each. */
  function Lines(items: seq<string>, prefix: string): string
    decreases |items|
  {
    if items == [] then [] else prefix + items[0] + "\n" + Lines(items[1..], prefix)
  }

  /** The sections of a poll block that come from its `results` object. */
  function RenderResults(res: Results, remaining: Option<int>): string {
    (if remaining.Some? then "Remaining seconds: " + IntToString(remaining.value) + "\n" else [])
    + (if res.transcript.Some? then ContentMarker + "\n" + res.transcript.value + "\n" else [])
    + (if res.wordTimeOffsets.Some? then "\n" + TimestampsMarker + "\n" + Lines(res.wordTimeOffsets.value, []) else [])
    + (if res.speakers.Some? then "\nSPEAKER INFORMATION:\n" + Lines(res.speakers.value, "Speaker: ") else [])
    + (if res.summary.Some? then "\nAUTO-GENERATED SUMMARY:\n" + res.summary.value + "\n" else [])
  }

  /** The banner that opens the final block. */
  function FinalBanner(): string {
    "FINAL TRANSCRIPTION COMPLETE\n" + Repeat('=', 80) + "\n"
  }

  /**
   * The text one append writes. Every append ends a line; a poll block opens with its number and
   * status, the header with the recording's name, and a final block that has a transcript ends
   * with the final marker's line, the transcript and a blank line.
   */
  function RenderBlock(b: Block): (r: string)
    ensures EndsWith(r, "\n")
    ensures b.FileHeader? ==> StartsWith(r, "FULL TRANSCRIPT - " + b.baseFilename + "\n")
    ensures b.PollBlock? ==> StartsWith(r, "POLL #" + NatToString(b.n) + " - Status: " + b.status + "\n")
    ensures b.FinalBlock? ==> StartsWith(r, FinalBanner())
    ensures b.FinalBlock? && b.transcript.Some? ==> EndsWith(r, FinalMarker + "\n" + b.transcript.value + "\n\n")
  {
    match b
    case FileHeader(base, generated) =>
      "FULL TRANSCRIPT - " + base + "\n" + "Generated: " + generated + "\n" + Repeat('=', 80) + "\n\n"
    case PollBlock(n, status, clock, results, remaining) =>
      "POLL #" + NatToString(n) + " - Status: " + status + "\n" + "Timestamp: " + clock + "\n"
      + (if results.Some? then RenderResults(results.value, remaining) else [])
      + "\n" + Repeat('-', 60) + "\n\n"
    case FinalBlock(transcript) =>
      FinalBanner() + (if transcript.Some? then FinalMarker + "\n" + transcript.value + "\n\n" else [])
  }

  /** The contents of a file built by appending `blocks` in order. */
  function RenderFile(blocks: seq<Block>): string
    decreases |blocks|
  {
    if blocks == [] then [] else RenderFile(blocks[..|blocks| - 1]) + RenderBlock(blocks[|blocks| - 1])
  }
}

=== FILE: wrappers.dfy ===
/** Optional values and results with an error, as used for Python's missing keys and raised exceptions. */
module Wrappers {

  /** A value that may be absent, like a JSON key that may be missing. */
  datatype Option<+T> = None | Some(value: T) {

    /** The value, or `default` when absent (Python's `dict.get(key, default)`). */
    function GetOr(default: T): T {
      match this
      case Some(v) => v
      case None => default
    }
  }

  /** The normal return value of an operation, or the exception it raises. */
  datatype Result<+R, +E> = Success(value: R) | Failure(error: E)
}
